=== FILE: README.md ===
# Inventium frontend data layer, modelled in Dafny

This project models the logic at the core of the Inventium inventory frontend.
The frontend is a Next.js/React application written in TypeScript.

- **Request executors.** `api-client.ts` is the authenticated hook executor. It refuses to send without a session token. `api.ts` is the generic executor. It sends with whatever token it finds, or with none. Both have the same `get`, `post`, `put`, `patch` and `delete` helpers, defined once in the model. Both classify every fetch outcome the same way: a non-2xx status becomes an `ApiError` with that status and the parsed error body; 204 gives `{}`; anything else that throws becomes an `ApiError` with status 0. That includes an error body that parses to `null`, because reading its `message` throws a TypeError.
- **Inventory data layer.** This covers the mapping of capitalised backend records (`mapBackendItem`), the stock status and its badge colour, and the sample-data filter and pagination. It also covers three list fetches: the legacy one, which falls back to the sample data; the client hook, which wraps errors as "Inventory service error: …"; and the server one, which rewrites an expired token into an authentication message. Finally, it covers the item fetch, and the form-encoded create, update and delete of the client hook.
- **Warehouse data layer.** This covers `mapBackendWarehouse` and the token-checked list, item and delete calls of `warehouse-client.ts`.
- **Components.** The components' state and handlers are modelled: the sample inventory table (search, status, page and footer), the history table's fetch, the two pagination bars, the two filter bars, the active-route rules of the hook and of the drawer, and the Express `verifyAuthToken` middleware.

The model has these parts:

- **JavaScript values.** A value read from JSON is a `Json` datatype. An absent key is `JUndefined`. `Truthy` gives JavaScript's `||` and `if`.
- **Query strings.** A query string or form body is a sequence of name/value pairs. `URLSearchParams` is a class whose `entries` its methods reassign.
- **Fetch.** Fetch is not performed. Its outcome is an input: a received response (status, status text, body text, and what `response.json()` gives) or a network failure. Every call returns an `Exchange`, which pairs the requests it actually sent with its result or error. So "the call never reaches the network" reads `sent == []`.
- **Methods and specifications.** Each data-layer operation the source writes step by step is a method. It is proved equal to a specification function, and the properties are proved about that function. The component classes keep the component's state as fields.

## Model

| member | source | states |
|---|---|---|
| Http.Overlay | src/lib/api-client.ts:47-50 | an object spread `{...base, ...over}`: every key that `over` has wins, and every other key comes from `base` |
| Http.Classify | src/lib/api-client.ts:52-80 | a network failure gives `ApiError(message, 0)`. A non-2xx status whose error body is not `null` gives an ApiError with that status and the parsed error body (`{}` when it does not parse), and its message is the body's `message` as text (`String(message)`) when that is truthy, and "HTTP status: statusText" when it is falsy or missing or the body does not parse. A non-2xx status whose body parses to `null` gives the TypeError of reading `message` as an ApiError with status 0 and no body. 204 gives `{}`. Success happens exactly on a 2xx status whose body parses or which is 204, and then the parsed body is the value. Every failure is an ApiError |
| Http.GetOptions | src/lib/api-client.ts:85-86 | the `get` helper (the same in both executors): the method defaults to GET; the caller's options win |
| Http.WriteOptions | src/lib/api-client.ts:88-107 | the `post`, `put` and `patch` helpers: the body is present exactly when the data is truthy (unless the caller gives one), and it is the JSON text of the data. The caller's method and headers win |
| Http.DeleteOptions | src/lib/api-client.ts:109-110 | the `delete` helper: the method defaults to DELETE; the caller's options win |
| ApiClient.ConstructedHeaders | src/lib/api-client.ts:31-45 | Authorization is "Bearer token". Content-Type is application/json unless the body is FormData or a Content-Type is already set. Every other header is the caller's |
| ApiClient.SentHeaders | src/lib/api-client.ts:47-50 | caller-supplied `options.headers` replace the constructed headers outright; otherwise Authorization and the JSON Content-Type are sent |
| ApiClient.RequestExchange | src/lib/api-client.ts:27-80 | without a truthy token nothing is sent, and the call fails with `ApiError("Authentication required", 401)`. With one, exactly one request goes to the base URL plus the endpoint, and its result is the classified outcome |
| ApiClient.ApiRequest | src/lib/api-client.ts:22-81 | the step-by-step executor equals `RequestExchange` |
| ApiClient.CallerHeadersDropAuthorization | src/lib/api-client.ts:47-50 | a caller that passes its own headers sends no Authorization header, even with a valid token |
| Api.ChosenToken | src/lib/api.ts:24 | a truthy server token wins; otherwise the stored client token is used |
| Api.MergedHeaders | src/lib/api.ts:26-31 | without caller headers: a JSON Content-Type, plus Authorization exactly when the token is truthy |
| Api.MergedHeadersPrecedence | src/lib/api.ts:27-31 | key by key, a caller header wins over Content-Type and Authorization in the merged object. That object is sent only without caller headers (see `Api.SentHeaders`) |
| Api.SentHeaders | src/lib/api.ts:26-33 | `...options` is spread last, so caller headers replace the merged ones |
| Api.RequestExchange | src/lib/api.ts:18-66 | exactly one request is always sent, to the base URL plus the endpoint, with the chosen token's headers and the caller's body. The result is the classified outcome |
| Api.SentWithoutToken | src/lib/api.ts:24-35 | with no token anywhere, the request still goes out, without Authorization |
| UrlParams.UrlSearchParams.Append | src/lib/inventory.ts:169-172 | the pair is added at the end and nothing else changes |
| UrlParams.UrlSearchParams.Set | src/components/tables/InventoryFilters.tsx:14 | the first pair with that name takes the value, the others go (the `Put` function), and a lookup of the name gives the value |
| UrlParams.UrlSearchParams.Delete | src/components/tables/InventoryFilters.tsx:16 | every pair with the name goes (the `Removed` function), and a lookup of the name gives nothing |
| Pairs.LookupPut | src/components/tables/InventoryFilters.tsx:14 | after `set`, the name reads as the new value and every other name reads as before |
| Pairs.LookupRemoved | src/components/tables/InventoryFilters.tsx:16 | after `delete`, the name is absent and every other name reads as before |
| Pairs.PutPut | src/components/tables/InventoryPagination.tsx:27 | setting the same value twice is setting it once |
| Pairs.RemovedRemoved | src/components/tables/InventoryFilters.tsx:20 | deleting twice is deleting once |
| Pairs.LookupMerge | src/lib/api.ts:27-31 | in a spread of two header objects, the later one wins key by key |
| Pairs.SerializeEmpty | src/lib/inventory.ts:174-175 | the query string is empty exactly when there are no parameters |
| Text.Trim | src/lib/inventory-client.ts:135-139 | the result is the slice of the input left after removing white space at both ends: everything before and after it is white space, it begins and ends with a non-space, and it is empty exactly when the input is all white space |
| Text.TrimUnpadded | src/lib/inventory-client.ts:135-139 | a string that begins and ends with a non-space is its own trim |
| Text.ToLower | src/lib/inventory.ts:264-266 | the same length, lower-cased character by character |
| Text.BeforeFirst | src/lib/inventory.ts:145 | `split('T')[0]`: a prefix of the input, with no 'T' in it, that ends at the first 'T' or at the end of the input |
| Text.ParseIntToString | src/lib/inventory.ts:171-172 | the decimal text of a page or limit reads back as the same integer |
| Js.CeilDiv | src/lib/inventory.ts:275 | `Math.ceil(n / d)` is the least c with n ≤ c·d |
| Js.Slice | src/lib/inventory.ts:277 | `Array.prototype.slice` for non-negative bounds, clamped to the length. The result is never longer than the requested width |
| JsonValue.Read | src/lib/inventory-client.ts:111 | reading a property throws exactly on null or undefined; otherwise it is the property (undefined when absent) |
| JsonValue.MapEach | src/components/sections/inventory-explore/inventory-history/InventoryTable.tsx:175 | `map` with a throwing callback: it succeeds exactly when every element does, element by element, and otherwise throws some element's error |
| JsonValue.StringToNumber | src/lib/inventory-client.ts:192-195 | `Number(s)` on text: surrounding white space is ignored, blank text is 0, and a signed or unsigned decimal integer is its value; every numeric result is a whole number |
| JsonValue.ToNumber | src/lib/inventory-client.ts:192-195 | `Number(j)`: a number is itself, text is read by `StringToNumber`, and every numeric result is a whole number; null is 0, undefined NaN, a boolean 0 or 1, an object NaN, [] 0, a one-element array holding null or undefined 0, one holding any other non-boolean its element, and any other array NaN |
| JsonValue.StringToNumberIntToString | src/lib/inventory-client.ts:192-195 | the decimal text of any integer coerces back to that integer |
| JsonValue.ToNumberIntegerText | src/lib/inventory.ts:143 | a quantity sent as decimal text, alone or in a one-element array, coerces to the same number as the quantity itself, so `>` and `isNaN` treat both alike |
| ListResponse.ServerPagination | src/lib/inventory.ts:196-205 | each server field wins when truthy (as coerced by `NumberOr`), with the defaults page, limit, 1 and the row count. `startIndex` and `endIndex` are derived from the chosen fields |
| ListResponse.NumberOr | src/lib/inventory.ts:197-204 | `field || fallback` inside the index arithmetic: a falsy field takes the fallback; a truthy number or numeric string counts as its numeric value |
| ListResponse.NumberOrIntegerText | src/lib/inventory.ts:197-201 | a page number sent as decimal text counts as that number, so `{currentPage: "2"}` gives page 2 |
| ListResponse.ServerRangeWithinPage | src/lib/inventory.ts:201-205 | for a page that is in range, 1 ≤ start ≤ end ≤ total, and at most one page of rows |
| ListResponse.ServerRangePastEnd | src/lib/inventory.ts:201-205 | for a page beyond the data, start > end |
| ListResponse.ShapeOf | src/lib/inventory.ts:191-242 | the envelope cases: `<list>` array, bare array, `data` array, or `data` object. Each holds exactly under the condition its branch tests |
| ListResponse.KeyedArrayFirst | src/lib/inventory.ts:193 | an object with a `<list>` array is read as that case, whatever else it holds |
| ListResponse.Normalized | src/lib/inventory.ts:180-242 | which rows are converted in each case. The call succeeds exactly when every row converts. Server pagination is used when present; otherwise page, limit, one page and the row count. `data.items` without `pagination` keeps totalItems 0. An unrecognised response gives no rows and the defaults |
| ListResponse.Normalize | src/lib/inventory.ts:180-242 | the step-by-step normaliser equals `Normalized` |
| Inventory.StatusOf | src/lib/inventory.ts:143 | "In Stock" exactly above 50, "Low Stock" in (10, 50], and otherwise "Out of Stock", including NaN |
| Inventory.BadgeColor | src/lib/inventory.ts:329-340 | each status has its colour in both directions; any other text is "light" |
| Inventory.DerivedStatusColoured | src/lib/inventory.ts:143 | a status computed from a quantity never gets "light" |
| Inventory.MapBackendItem | src/lib/inventory.ts:135-150 | it throws exactly on a nullish record or a truthy non-string CreatedAt. Fields are copied from the capitalised keys. Price is 0. Status comes from Quantity. Supplier is Location, else "Unknown". lastUpdated is CreatedAt up to its first 'T', else today |
| Inventory.FilterItems | src/lib/inventory.ts:262-271 | the result is an order-preserving subsequence; every kept item matches; every matching item is kept, as many times as it occurs in the input, and no other item is |
| Inventory.FilterKeepsAll | src/lib/inventory.ts:262-271 | an empty search with "All" keeps every item |
| Inventory.Fallback | src/lib/inventory.ts:258-290 | totalItems is the filtered count; totalPages is its ceiling over 5; start and end indices as written; the rows are the page's slice of the filtered items. At most 5 rows, each matching |
| Inventory.LegacyQueryPairs | src/lib/inventory.ts:164-172 | search is present exactly when non-empty and status exactly when neither empty nor "All", with their values; page and limit are always present with their decimal text; the names come in the order search, status, page, limit |
| Inventory.BuildLegacyQuery | src/lib/inventory.ts:168-172 | the appends build `LegacyQueryPairs` |
| Inventory.LegacyQueryRoundTrip | src/lib/inventory.ts:164-172 | reading the query back with the same defaults gives the filters back |
| Inventory.ListEndpoint | src/lib/inventory.ts:174-175 | `?query` is appended exactly when there are parameters |
| Inventory.LegacyFetch | src/lib/inventory.ts:153-255 | it never fails. One GET is sent. Any transport, HTTP or normalisation failure gives the sample-data page for the same filters |
| Inventory.FetchInventoryItems | src/lib/inventory.ts:153-255 | the step-by-step fetch equals `LegacyFetch` |
| InventoryClient.ClientQueryPairs | src/lib/inventory-client.ts:13-18 | search is present exactly when set and status exactly when neither empty nor "All", with their values; page exactly above 1 and limit exactly when not 5, with their decimal text. The names come in the order search, status, page, limit. The query is empty exactly for the default filters |
| InventoryClient.BuildClientQuery | src/lib/inventory-client.ts:13-18 | the appends build `ClientQueryPairs` |
| InventoryClient.ClientQueryRoundTrip | src/lib/inventory-client.ts:9-18 | reading the query back with the backend defaults gives the filters, with a page of 1 or less read as 1 |
| InventoryClient.DefaultFiltersBareEndpoint | src/lib/inventory-client.ts:20-21 | the default filters request the bare `/inventory/list` |
| InventoryClient.WrapListError | src/lib/inventory-client.ts:100-104 | the message is "Inventory service error: " followed by the original message |
| InventoryClient.FetchListExchange | src/lib/inventory-client.ts:8-105 | it sends what the hook executor sends. Without a token it fails with the wrapped "Authentication required". With a token, a failed request is rethrown as the prefix followed by the executor error's message, never replaced by sample data. Every failure carries the prefix. On success the rows are the normalised page |
| InventoryClient.FetchInventoryItems | src/lib/inventory-client.ts:8-105 | the step-by-step fetch equals `FetchListExchange` |
| InventoryClient.ItemFromResponse | src/lib/inventory-client.ts:111-115 | it succeeds exactly when `data` is truthy and maps; the item is the mapped `data`; a falsy `data` gives "Invalid response format" |
| InventoryClient.FetchItemExchange | src/lib/inventory-client.ts:107-119 | one GET of `/inventory/{id}` through the executor; executor errors pass through; otherwise `ItemFromResponse` |
| InventoryClient.Payload | src/lib/inventory-client.ts:149-154 | the form has the six field names in the backend's order |
| InventoryClient.PayloadRoundTrip | src/lib/inventory-client.ts:149-154 | reading the form back gives the fields |
| InventoryClient.BuildPayload | src/lib/inventory-client.ts:132-154 | the appends build `Payload` |
| InventoryClient.TextOr | src/lib/inventory-client.ts:135-139 | `(x \|\| fallback)` on an optional text |
| InventoryClient.CreateQuantity | src/lib/inventory-client.ts:126-129 | a missing or NaN quantity counts as 0 |
| InventoryClient.PrepareCreate | src/lib/inventory-client.ts:126-154 | quantity is checked first, then name, then category, with their messages: a valid quantity with an empty trimmed name fails with the name message, and one with a name but an empty trimmed category with the category message. It succeeds exactly when the quantity is non-negative and the trimmed name and category are non-empty. The fields are the trimmed values with defaults "piece", "unit" and location-or-supplier. The quantity is the floor of the number |
| InventoryClient.CreateFieldsTrimmed | src/lib/inventory-client.ts:135-139 | every text field sent has no leading or trailing white space |
| InventoryClient.CreateNaNQuantityIsZero | src/lib/inventory-client.ts:126-129 | a NaN quantity is accepted and sent as 0 whenever the trimmed name and category are non-empty |
| InventoryClient.CreateExchange | src/lib/inventory-client.ts:121-181 | a validation failure sends nothing and throws its message. A valid draft without a token sends nothing and fails with `ApiError("Authentication required", 401)`. Otherwise exactly one form-encoded POST to `/inventory/create` with only the form Content-Type header; a failed response is rethrown and a successful one gives the item mapped from its `data` |
| InventoryClient.CreateInventoryItem | src/lib/inventory-client.ts:121-181 | the step-by-step create equals `CreateExchange` |
| InventoryClient.CreateSendsNoAuthorization | src/lib/inventory-client.ts:163-169 | the create request carries no Authorization header, even with a token |
| InventoryClient.UpdateQuantity | src/lib/inventory-client.ts:192 | the given quantity wins; otherwise the current item's quantity, coerced by `Number` |
| InventoryClient.UpdateQuantityFromText | src/lib/inventory-client.ts:192-195 | a current quantity stored as decimal text, such as "12", is the number it spells and passes the NaN check |
| InventoryClient.Chosen | src/lib/inventory-client.ts:201-205 | `(given \|\| current \|\| fallback).trim()`. It throws exactly when the current value is picked and is truthy but not text |
| InventoryClient.PrepareUpdate | src/lib/inventory-client.ts:192-220 | NaN or a negative quantity is refused first. With a valid quantity, a chosen value that is not a string fails with the `trim` TypeError, then an empty chosen name with the name message, then an empty chosen category with the category message. It succeeds exactly when the quantity is valid, all five chosen values are strings and the name and category are non-empty; each field is then the chosen, trimmed value |
| InventoryClient.UpdateExchange | src/lib/inventory-client.ts:183-266 | it first sends the GET of the current item. Its failure stops the update. A rejected draft sends nothing more. Otherwise a form-encoded PUT to `/inventory/{id}` with only the form Content-Type header follows; a failed PUT is rethrown and a successful one gives the item mapped from its `data` |
| InventoryClient.UpdateInventoryItem | src/lib/inventory-client.ts:183-266 | the step-by-step update equals `UpdateExchange` |
| InventoryClient.RejectedUpdateOnlyFetches | src/lib/inventory-client.ts:191-213 | a draft that fails validation sends at most the GET |
| InventoryClient.DeleteExchange | src/lib/inventory-client.ts:268-275 | one DELETE through the executor. It succeeds exactly with a token and a successful outcome. A failure is the executor's own error, rethrown unchanged |
| InventoryServer.ServerListError | src/lib/inventory-server.ts:112-126 | a message containing the expired-token marker becomes the authentication message; any other is wrapped with the service prefix |
| InventoryServer.PrefixedNotAuthFailed | src/lib/inventory-server.ts:116-125 | a wrapped message is never the authentication message |
| InventoryServer.TokenArgument | src/lib/inventory-server.ts:21 | a truthy server token is passed on; otherwise none |
| InventoryServer.FetchListServerExchange | src/lib/inventory-server.ts:6-127 | one GET of the same query as the client hook through the generic executor, with Authorization exactly when the server token is truthy. Failures are rewritten by `ServerListError`. Success gives the normalised page |
| InventoryServer.FetchInventoryItemsServer | src/lib/inventory-server.ts:6-127 | the step-by-step fetch equals `FetchListServerExchange` |
| InventoryServer.ExpiredTokenRewritten | src/lib/inventory-server.ts:116-118 | an error body whose message is the expired-token marker yields the authentication message |
| InventoryServer.FetchItemServerExchange | src/lib/inventory-server.ts:130-145 | one GET of `/inventory/{id}`; executor errors pass through; otherwise `ItemFromResponse` |
| Warehouses.FieldOr | src/lib/warehouse.ts:38-43 | the lower-case key wins when truthy, then the capitalised one, then "" |
| Warehouses.MapBackendWarehouse | src/lib/warehouse.ts:35-45 | it throws exactly on a nullish record. id is `id \|\| ID`. Each text field follows `FieldOr`, so it is truthy or "" |
| Warehouses.ToBackendRoundTrip | src/lib/warehouse.ts:35-45 | mapping a warehouse written back as a record gives the same warehouse |
| Warehouses.MapIdempotent | src/lib/warehouse.ts:35-45 | mapping an already mapped warehouse changes nothing |
| WarehouseClient.AuthHeaders | src/lib/warehouse-client.ts:29-35 | Bearer Authorization and a JSON Content-Type |
| WarehouseClient.Checked | src/lib/warehouse-client.ts:37-40 | it passes the response on exactly when fetch resolved with a 2xx status. A non-2xx status throws "HTTP status: body text". A network failure throws its message |
| WarehouseClient.Receive | src/lib/warehouse-client.ts:37-42 | `Checked`, then `response.json()`, whose SyntaxError is thrown as it is |
| WarehouseClient.WarehouseQueryPairs | src/lib/warehouse-client.ts:19-25 | search when set; no status; page above 1; limit other than 10 |
| WarehouseClient.BuildWarehouseQuery | src/lib/warehouse-client.ts:19-25 | the appends build `WarehouseQueryPairs` |
| WarehouseClient.WarehouseQueryRoundTrip | src/lib/warehouse-client.ts:19-25 | reading the query back with a page size of 10 gives the search, page (at least 1) and limit |
| WarehouseClient.FetchWarehousesExchange | src/lib/warehouse-client.ts:8-123 | without a token nothing is sent, and it fails with the prefixed "No authentication token available". Otherwise one authenticated GET of the list URL is sent. Every failure carries "Warehouse service error: " |
| WarehouseClient.FetchWarehouses | src/lib/warehouse-client.ts:8-123 | the step-by-step fetch equals `FetchWarehousesExchange` |
| WarehouseClient.WarehouseFromResponse | src/lib/warehouse-client.ts:150-153 | it succeeds exactly when `data` is truthy, giving the mapped `data`; a non-null response whose `data` is falsy gives "Invalid response format", and a null or undefined response throws the TypeError of reading `data` |
| WarehouseClient.FetchWarehouseExchange | src/lib/warehouse-client.ts:125-158 | without a token nothing is sent. Otherwise one authenticated GET of the item URL, then `WarehouseFromResponse` |
| WarehouseClient.DeleteWarehouseExchange | src/lib/warehouse-client.ts:160-185 | without a token nothing is sent. Otherwise one authenticated DELETE, which succeeds exactly on a 2xx status |
| WarehouseClient.DeleteIgnoresBody | src/lib/warehouse-client.ts:169-184 | a 2xx delete succeeds even when its body is not JSON |
| SampleTable.InventoryTable.constructor | src/components/tables/InventoryTable.tsx:121-123 | page 1, an empty search, status "All" |
| SampleTable.InventoryTable.ChangeSearch | src/components/tables/InventoryTable.tsx:179-182 | the search is set and the page goes back to 1; the status stays |
| SampleTable.InventoryTable.ChangeStatus | src/components/tables/InventoryTable.tsx:189-191 | the status is set and the page goes back to 1; the search stays |
| SampleTable.InventoryTable.ChangePage | src/components/tables/InventoryTable.tsx:359 | the page is set; the search and the status stay |
| SampleTable.InventoryTable.TotalPages | src/components/tables/InventoryTable.tsx:138 | the least page count that holds the filtered rows at 5 a page |
| SampleTable.InventoryTable.VisibleRows | src/components/tables/InventoryTable.tsx:126-140 | at most 5 rows, all matching, and exactly the current page's slice of the filtered rows |
| SampleTable.InventoryTable.FooterLine | src/components/tables/InventoryTable.tsx:351-354 | shown exactly when more than 5 rows match. It gives the total, first = (page - 1) * 5 + 1 and last = min(page * 5, total), a range that agrees with the rows shown |
| SampleTable.FirstPageShown | src/components/tables/InventoryTable.tsx:138-140 | page 1 shows the first rows that match |
| SampleTable.NoEmptyPage | src/components/tables/InventoryTable.tsx:138-140 | every page from 1 to the page count shows at least one row |
| InventoryHistory.NormalizeInventoryItem | src/components/sections/inventory-explore/inventory-history/InventoryTable.tsx:133-141 | it throws exactly on a nullish row; otherwise it copies the seven capitalised fields |
| InventoryHistory.SelectedRows | src/components/sections/inventory-explore/inventory-history/InventoryTable.tsx:165-172 | a bare array as it is; otherwise the first truthy of `data`, `items` and `inventories`, else `[]` |
| InventoryHistory.HistoryRows | src/components/sections/inventory-explore/inventory-history/InventoryTable.tsx:153-181 | the normalised rows when the response is 2xx JSON and the selection maps; no rows when the status is not 2xx, the body is not JSON, the selected value is not an array or a row cannot be read |
| InventoryHistory.HistoryTable.FetchInventories | src/components/sections/inventory-explore/inventory-history/InventoryTable.tsx:144-182 | it fetches exactly when the environment token is truthy. Without a token the rows are unchanged; otherwise they are `HistoryRows` |
| InventoryHistory.BareArrayKept | src/components/sections/inventory-explore/inventory-history/InventoryTable.tsx:168-175 | a bare array of records is kept row for row |
| WarehouseTable.RenderPagination | src/components/warehouse/WarehouseTable.tsx:51-66 | no buttons exactly when there is at most one page. Otherwise consecutive pages from the window start to the window end |
| WarehouseTable.WindowBounds | src/components/warehouse/WarehouseTable.tsx:55-61 | the window lies within 1..totalPages |
| WarehouseTable.WindowHoldsCurrent | src/components/warehouse/WarehouseTable.tsx:55-61 | for a page in range, the window contains it and has min(5, totalPages) buttons |
| WarehouseTable.EnabledStepsStayInRange | src/components/warehouse/WarehouseTable.tsx:72-121 | an enabled Previous or Next leads to a page in range; both are disabled while loading |
| WarehouseTable.PreviousDisabled | src/components/warehouse/WarehouseTable.tsx:72 | Previous is disabled while loading, and otherwise exactly when no page precedes the current one |
| WarehouseTable.NextDisabled | src/components/warehouse/WarehouseTable.tsx:79 | Next is disabled while loading, and otherwise exactly when no page follows the current one |
| InventoryPagination.PagesAroundCurrent | src/components/tables/InventoryPagination.tsx:37-40 | min(3, totalPages) consecutive pages from max(current - 1, 1) |
| InventoryPagination.WindowAroundMiddle | src/components/tables/InventoryPagination.tsx:37-40 | an inner page shows its two neighbours |
| InventoryPagination.CurrentHasButton | src/components/tables/InventoryPagination.tsx:37-40 | the current page always has a button |
| InventoryPagination.LastPageOvershoots | src/components/tables/InventoryPagination.tsx:37-40 | on the last page the window ends one page past the last |
| InventoryPagination.EllipsesMarkGaps | src/components/tables/InventoryPagination.tsx:37-70 | the leading ellipsis shows exactly when the window starts above page 2; the trailing one, on page 1, exactly when the window ends before the last page, and elsewhere exactly when it ends at least two pages before it |
| InventoryPagination.LeadingEllipsis | src/components/tables/InventoryPagination.tsx:56 | shown exactly when at least two pages come before the window |
| InventoryPagination.TrailingEllipsis | src/components/tables/InventoryPagination.tsx:70 | on page 1 shown exactly when a page comes after the window; on a later page only when at least two do |
| InventoryPagination.HiddenPagesWithoutEllipsis | src/components/tables/InventoryPagination.tsx:37-70 | page 3 of 5 shows the buttons 2, 3 and 4, so pages 1 and 5 have no button, and neither ellipsis is shown |
| InventoryPagination.PreviousDisabled | src/components/tables/InventoryPagination.tsx:50 | from a page of at least 1, Previous is enabled exactly when a previous page exists |
| InventoryPagination.NextDisabled | src/components/tables/InventoryPagination.tsx:74 | from a page not past the last, Next is enabled exactly when a next page exists |
| InventoryPagination.EnabledStepsStayInRange | src/components/tables/InventoryPagination.tsx:50-74 | an enabled Previous or Next leads to a page in range |
| InventoryPagination.PageQuery | src/components/tables/InventoryPagination.tsx:24-31 | page reads as the new page and every other parameter is kept |
| InventoryPagination.HandlePageChange | src/components/tables/InventoryPagination.tsx:33-35 | the URL pushed is "?" and the serialised `PageQuery` |
| InventoryPagination.PageQueryRoundTrip | src/components/tables/InventoryPagination.tsx:33-34 | the page parameter reads back as the page |
| InventoryFilterBar.CreateQueryString | src/components/tables/InventoryFilters.tsx:10-25 | the serialised parameters after setting or deleting the name and dropping `page` |
| InventoryFilterBar.FilterQueryLookup | src/components/tables/InventoryFilters.tsx:13-21 | the name takes the value (or goes when empty); `page` goes unless it is the name; every other parameter is kept |
| InventoryFilterBar.FilterQueryIdempotent | src/components/tables/InventoryFilters.tsx:10-25 | applying a change twice equals applying it once |
| InventoryFilterBar.SearchChange | src/components/tables/InventoryFilters.tsx:27-29 | `search` takes the value, or goes when it is empty; `page` goes; every other parameter is kept |
| InventoryFilterBar.StatusChange | src/components/tables/InventoryFilters.tsx:31-33 | `status` takes the value, or goes when it is empty or "All"; `page` goes; every other parameter is kept |
| InventoryFilterBar.AllClearsStatus | src/components/tables/InventoryFilters.tsx:31-33 | "All" removes `status` and `page` and keeps `search` |
| InventoryFilterBar.SearchResetsPage | src/components/tables/InventoryFilters.tsx:27-29 | a new search is kept; `page` goes; `status` is kept |
| WarehouseSearchBar.Submitted | src/components/warehouse/WarehouseFilters.tsx:18-25 | the search is the input; the page is 1; the limit is kept |
| WarehouseSearchBar.Cleared | src/components/warehouse/WarehouseFilters.tsx:27-34 | the search is ""; the page is 1; the limit is kept |
| WarehouseSearchBar.SearchBar.constructor | src/components/warehouse/WarehouseFilters.tsx:16 | the input starts as the filter's search, or "" |
| WarehouseSearchBar.SearchBar.Submit | src/components/warehouse/WarehouseFilters.tsx:18-25 | it emits `Submitted` for the current input |
| WarehouseSearchBar.SearchBar.Type | src/components/warehouse/WarehouseFilters.tsx:48 | the input holds the typed value |
| WarehouseSearchBar.SearchBar.Clear | src/components/warehouse/WarehouseFilters.tsx:27-34 | the input is emptied and `Cleared` is emitted |
| WarehouseSearchBar.ClearIsEmptySubmit | src/components/warehouse/WarehouseFilters.tsx:18-34 | clearing emits what submitting an empty input emits |
| WarehouseSearchBar.SubmitIdempotent | src/components/warehouse/WarehouseFilters.tsx:18-25 | submitting twice emits what submitting once does |
| ActiveRoute.AnySubItemActive | src/hooks/useActiveRoute.ts:22-24 | true exactly when some sub-entry's path is active |
| ActiveRoute.IsMenuItemActive | src/hooks/useActiveRoute.ts:15-27 | a direct path other than "" and "#!" decides alone; otherwise some sub-entry must be active |
| ActiveRoute.RootOnlyOnItself | src/hooks/useActiveRoute.ts:8-13 | "/" is active exactly on "/" |
| ActiveRoute.IsRouteActive | src/hooks/useActiveRoute.ts:8-13 | an active path is always a prefix of the location; the root is active exactly on "/", any other path exactly on the locations it prefixes |
| ActiveRoute.IsSubMenuItemActive | src/hooks/useActiveRoute.ts:29-31 | a sub-entry is active exactly when its path is |
| ActiveRoute.ActiveBelow | src/hooks/useActiveRoute.ts:8-13 | any other path is active on every location that extends it |
| ActiveRoute.PrefixNotSegment | src/hooks/useActiveRoute.ts:8-13 | matching is by characters: "/inv" is active on "/inventory" |
| ActiveRoute.DirectPathWins | src/hooks/useActiveRoute.ts:15-27 | an entry with an inactive direct path is inactive, whatever its sub-entries |
| DrawerItems.HasActiveChild | src/layouts/main-layout/sidebar/DrawerItems.tsx:30-33 | true exactly when some sub-entry is active |
| DrawerItems.Annotate | src/layouts/main-layout/sidebar/DrawerItems.tsx:81-84 | each sub-entry is kept in order with its own active flag |
| DrawerItems.EntryFor | src/layouts/main-layout/sidebar/DrawerItems.tsx:78-97 | collapsible exactly when there are sub-entries, and then active exactly when a child is; otherwise active by its own path |
| DrawerItems.AgreesWithHook | src/layouts/main-layout/sidebar/DrawerItems.tsx:18-28 | on every path other than "" and "#!", the drawer's rule equals the hook's |
| DrawerItems.IsActive | src/layouts/main-layout/sidebar/DrawerItems.tsx:18-28 | never active for an absent, empty or "#!" path; for any other path, active exactly when the hook calls it active |
| DrawerItems.EmptyPathDiffers | src/layouts/main-layout/sidebar/DrawerItems.tsx:18-28 | the hook calls "" active everywhere; the drawer never does |
| ClerkMiddleware.Decide | src/middlewares/clerk.tsx:41-53 | it rejects with the header message exactly when the header is missing, empty or lacks "Bearer ". It accepts exactly when a token follows, and the header is then "Bearer " plus the token |
| ClerkMiddleware.BearerRoundTrip | src/middlewares/clerk.tsx:43-53 | "Bearer " plus a token gives that token back; an empty one is refused with "No token provided" |
| ClerkMiddleware.LowerCaseSchemeRefused | src/middlewares/clerk.tsx:43 | the scheme is case-sensitive: "bearer …" is refused |
| ClerkMiddleware.VerifyAuthToken | src/middlewares/clerk.tsx:35-58 | either a 401 with the decision's message and no call to next, or the user id set and next called once |

## Left out

- Network I/O, `getToken()`, `getAuthToken()` and the environment token are not performed. Their outcomes are inputs, and each operation reads the token once.
- The `catch` branches that throw "Failed to connect to …" for a non-Error value are not modelled. Every value the model throws is an Error.
- Numbers are modelled as integers in JSON. A quantity typed into a form is a real or NaN. Fractional and infinite JSON numbers are not modelled.
- `JsonValue.StringToNumber`: `Number` reads only blank text and signed or unsigned decimal integers. Decimal fractions, exponents, hexadecimal, binary and octal literals, and "Infinity" read as NaN here, although JavaScript gives them a value.
- `ListResponse.NumberOr`: the pagination record holds integers, so a truthy field is stored as its coerced value rather than as sent (the text "2" is stored as 2). A truthy field that coerces to NaN, such as "abc", takes the fallback here, where the source would carry NaN into the index arithmetic.
- `URLSearchParams` percent-encoding is not modelled: the serialised form joins raw names and values with `=` and `&`.
- `toLowerCase` maps only A-Z: Unicode case folding is not modelled. `trim` removes the ASCII white space, U+00A0, U+FEFF, U+2028 and U+2029, but not the other Unicode space separators.
- The exact text of JavaScript TypeErrors is approximated. Only their occurrence is modelled.
- The middleware's `catch` branch ("Unauthorized") is not modelled. Nothing in the modelled body throws.
- `Api.MergedHeaders`: its contract covers the headers without caller headers. The case with caller headers is stated by `Api.MergedHeadersPrecedence`, which requires the caller's header names to be distinct.
- The legacy create, update and delete of `src/lib/inventory.ts` (lines 292-327) are not part of this model. Neither are the create, update and delete of `src/lib/inventory-server.ts`.
- `ListInventory` (the history table's fetch helper) is not part of this model. Its request is an input outcome.
- React rendering, MUI grids, the `Pagination` component the sample table uses, the forms, the date and price formatting, the sitemap data and the sample data arrays are not modelled. The sample data is a parameter.
- Base URLs read from the environment are not modelled. The defaults written in the source are used.

=== FILE: active_route.dfy ===
/**
 * Which menu entries are highlighted for the current location
 * (src/hooks/useActiveRoute.ts). A path is active by prefix, except the
 * root, which is active only on itself.
 */
module ActiveRoute {
  import opened Wrappers
  import opened Text

  /** A sitemap sub-entry: its path is always given. */
  datatype SubMenuItem = SubMenuItem(pathName: string, path: string)

  /** A sitemap entry: a direct path, sub-entries, or both; "#!" marks a path that is only a group header. */
  datatype MenuItem = MenuItem(id: string, path: Option<string>, items: Option<seq<SubMenuItem>>)

  /** isRouteActive(path): an active path is a prefix of the location, and the root matches only itself. */
  function IsRouteActive(currentPath: string, path: string): (b: bool)
    ensures b ==> StartsWith(currentPath, path)
    ensures path != "/" ==> (b <==> StartsWith(currentPath, path))
    ensures path == "/" ==> (b <==> currentPath == "/")
  {
    if path == "/" then currentPath == "/" else StartsWith(currentPath, path)
  }

  /** `items.some(subItem => isRouteActive(subItem.path))` */
  function AnySubItemActive(currentPath: string, items: seq<SubMenuItem>): (b: bool)
    ensures b <==> exists i :: 0 <= i < |items| && IsRouteActive(currentPath, items[i].path)
  {
    if items == [] then false
    else if IsRouteActive(currentPath, items[0].path) then true
    else
      assert forall i :: 1 <= i < |items| ==> items[i] == items[1..][i - 1];
      AnySubItemActive(currentPath, items[1..])
  }

  /** A direct path other than "#!" decides alone; otherwise the sub-entries do. */
  function IsMenuItemActive(currentPath: string, item: MenuItem): (b: bool)
    ensures item.path.Some? && item.path.value != "" && item.path.value != "#!" ==>
              (b <==> IsRouteActive(currentPath, item.path.value))
    ensures !(item.path.Some? && item.path.value != "" && item.path.value != "#!") ==>
              (b <==> item.items.Some? && exists i :: 0 <= i < |item.items.value| && IsRouteActive(currentPath, item.items.value[i].path))
  {
    if item.path.Some? && item.path.value != "" && item.path.value != "#!" then IsRouteActive(currentPath, item.path.value)
    else if item.items.Some? then AnySubItemActive(currentPath, item.items.value)
    else false
  }

  /** isSubMenuItemActive(item): a sub-entry follows the rule of its own path. */
  function IsSubMenuItemActive(currentPath: string, item: SubMenuItem): (b: bool)
    ensures b <==> IsRouteActive(currentPath, item.path)
    ensures b ==> StartsWith(currentPath, item.path)
  {
    IsRouteActive(currentPath, item.path)
  }

  /** The root is active exactly on "/". */
  lemma RootOnlyOnItself(currentPath: string)
    ensures IsRouteActive(currentPath, "/") <==> currentPath == "/"
  {
  }

  /** Any other path is active on every location below it, and matching is by characters, not by segments. */
  lemma ActiveBelow(path: string, rest: string)
    requires path != "/"
    ensures IsRouteActive(path + rest, path)
  {
    assert (path + rest)[..|path|] == path;
  }

  /** '/inv' is active on '/inventory'. */
  lemma PrefixNotSegment()
    ensures IsRouteActive("/inventory", "/inv")
  {
    ActiveBelow("/inv", "entory");
  }

  /** An entry with a direct path ignores its sub-entries. */
  lemma DirectPathWins(currentPath: string, path: string, items: seq<SubMenuItem>)
    requires path != "" && path != "#!" && !IsRouteActive(currentPath, path)
    ensures !IsMenuItemActive(currentPath, MenuItem("", Some(path), Some(items)))
  {
  }
}

=== FILE: api.dfy ===
/**
 * The generic request executor of src/lib/api.ts, used by the legacy and the
 * server-side inventory functions. It never refuses to send: the token is the
 * server token when there is one, else whatever the browser storage holds,
 * and without either the request simply goes out without Authorization.
 */
module Api {
  import opened Wrappers
  import opened JsonValue
  import opened Pairs
  import opened Http

  const BaseUrl := "http://localhost:8000/api"

  /** `serverToken || getAuthToken()`; getAuthToken() is the stored client token (None on the server). */
  function ChosenToken(serverToken: Option<string>, clientToken: Option<string>): (t: Option<string>)
    ensures HasToken(serverToken) ==> t == serverToken
    ensures !HasToken(serverToken) ==> t == clientToken
  {
    if HasToken(serverToken) then serverToken else clientToken
  }

  /** `{ 'Content-Type': 'application/json', ...(token && { Authorization }), ...options.headers }` */
  function MergedHeaders(token: Option<string>, caller: Option<seq<Pair>>): (h: seq<Pair>)
    ensures caller.None? ==> Lookup(h, "Content-Type") == Some("application/json")
    ensures caller.None? ==> Lookup(h, "Authorization") == if HasToken(token) then Some("Bearer " + token.value) else None
  {
    var base := [("Content-Type", "application/json")] + (if HasToken(token) then [("Authorization", "Bearer " + token.value)] else []);
    Merge(base, caller.GetOr([]))
  }

  /**
   * Caller headers win key by key in the merged object. That object is what
   * the request would carry only without caller headers: when they are
   * given, the later `...options` spread replaces it by them (SentHeaders).
   */
  lemma MergedHeadersPrecedence(token: Option<string>, caller: seq<Pair>, k: string)
    requires DistinctNames(caller)
    ensures Lookup(MergedHeaders(token, Some(caller)), k) ==
              if Lookup(caller, k).Some? then Lookup(caller, k)
              else if k == "Content-Type" then Some("application/json")
              else if k == "Authorization" && HasToken(token) then Some("Bearer " + token.value)
              else None
  {
    var base := [("Content-Type", "application/json")] + (if HasToken(token) then [("Authorization", "Bearer " + token.value)] else []);
    LookupMerge(base, caller, k);
    if HasToken(token) {
      assert base[1..] == [("Authorization", "Bearer " + token.value)];
      assert base[1..][1..] == [];
      assert "Content-Type"[0] != "Authorization"[0];
      if k != "Content-Type" {
        assert Lookup(base, k) == Lookup(base[1..], k);
        assert Lookup(base[1..], k) == if k == "Authorization" then Some("Bearer " + token.value) else Lookup(base[1..][1..], k);
      }
    } else {
      assert base[1..] == [];
    }
  }

  /** The headers fetch receives: `...options` is spread last, so options.headers replaces the merged object. */
  function SentHeaders(options: RequestOptions, token: Option<string>): (h: seq<Pair>)
    ensures options.headers.Some? ==> h == options.headers.value
    ensures options.headers.None? ==> h == MergedHeaders(token, None)
  {
    var merged := MergedHeaders(token, options.headers);
    Overlay(RequestOptions(None, Some(merged), None), options).headers.value
  }

  /** apiRequest(endpoint, options, serverToken) with the stored client token and the outcome of its fetch. */
  function RequestExchange(endpoint: string, options: RequestOptions, serverToken: Option<string>,
                           clientToken: Option<string>, outcome: FetchOutcome): (x: Exchange<Json>)
    ensures |x.sent| == 1 && x.sent[0].url == BaseUrl + endpoint && x.sent[0].verb == MethodOf(options)
    ensures x.sent[0].headers == SentHeaders(options, ChosenToken(serverToken, clientToken))
    ensures x.sent[0].body == options.body
    ensures x.result == Classify(outcome)
  {
    var token := ChosenToken(serverToken, clientToken);
    Exchange([Http.Request(BaseUrl + endpoint, MethodOf(options), SentHeaders(options, token), options.body)], Classify(outcome))
  }

  /** Without any token the request still goes out, only without Authorization. */
  lemma SentWithoutToken(endpoint: string, options: RequestOptions, outcome: FetchOutcome)
    requires options.headers.None?
    ensures var x := RequestExchange(endpoint, options, None, None, outcome);
            |x.sent| == 1 && Lookup(x.sent[0].headers, "Authorization").None?
  {
  }
}

=== FILE: api_client.dfy ===
/**
 * The authenticated request executor used by the client-side inventory hook
 * (src/lib/api-client.ts): it refuses to send anything without a session
 * token, fills in the headers, lets the caller's RequestInit override them,
 * and classifies the response with Http.Classify.
 */
module ApiClient {
  import opened Wrappers
  import opened JsonValue
  import opened Pairs
  import opened Http

  const BaseUrl := "http://localhost:13740/v1"

  /** `!headers['Content-Type']` */
  predicate LacksContentType(headers: seq<Pair>) {
    Lookup(headers, "Content-Type").None? || Lookup(headers, "Content-Type") == Some("")
  }

  /**
   * The headers object apiRequest builds: the caller's headers, then
   * Authorization, then a JSON Content-Type unless the body is FormData or a
   * Content-Type is already there.
   */
  function ConstructedHeaders(options: RequestOptions, token: string): (h: seq<Pair>)
    ensures Lookup(h, "Authorization") == Some("Bearer " + token)
    ensures var given := Put(options.headers.GetOr([]), "Authorization", "Bearer " + token);
            Lookup(h, "Content-Type") ==
              if options.body != Some(MultipartForm) && LacksContentType(given) then Some("application/json")
              else Lookup(options.headers.GetOr([]), "Content-Type")
    ensures forall k :: k != "Authorization" && k != "Content-Type" ==>
              Lookup(h, k) == Lookup(options.headers.GetOr([]), k)
  {
    var caller := options.headers.GetOr([]);
    var withAuth := Put(caller, "Authorization", "Bearer " + token);
    LookupPut(caller, "Authorization", "Bearer " + token, "Content-Type");
    forall k ensures Lookup(withAuth, k) == if k == "Authorization" then Some("Bearer " + token) else Lookup(caller, k) {
      LookupPut(caller, "Authorization", "Bearer " + token, k);
    }
    if options.body != Some(MultipartForm) && LacksContentType(withAuth) then
      forall k ensures Lookup(Put(withAuth, "Content-Type", "application/json"), k) ==
                       if k == "Content-Type" then Some("application/json") else Lookup(withAuth, k) {
        LookupPut(withAuth, "Content-Type", "application/json", k);
      }
      Put(withAuth, "Content-Type", "application/json")
    else
      withAuth
  }

  /** `{ headers, ...options }`: a caller-supplied options.headers replaces the constructed headers outright. */
  function SentHeaders(options: RequestOptions, token: string): (h: seq<Pair>)
    ensures options.headers.Some? ==> h == options.headers.value
    ensures options.headers.None? ==> Lookup(h, "Authorization") == Some("Bearer " + token)
                                      && (options.body != Some(MultipartForm) ==> Lookup(h, "Content-Type") == Some("application/json"))
  {
    if options.headers.Some? then options.headers.value else ConstructedHeaders(options, token)
  }

  /** apiRequest(endpoint, options) with the session token `token` and the outcome of its fetch. */
  function RequestExchange(endpoint: string, options: RequestOptions, token: Option<string>, outcome: FetchOutcome): (x: Exchange<Json>)
    ensures !HasToken(token) <==> x.sent == []
    ensures !HasToken(token) ==> x.result == Failure(ApiError("Authentication required", 401, None))
    ensures HasToken(token) ==> x.sent == [Http.Request(BaseUrl + endpoint, MethodOf(options), SentHeaders(options, token.value), options.body)]
                                && x.result == Classify(outcome)
  {
    if !HasToken(token) then Exchange([], Failure(ApiError("Authentication required", 401, None)))
    else Exchange([Http.Request(BaseUrl + endpoint, MethodOf(options), SentHeaders(options, token.value), options.body)], Classify(outcome))
  }

  /** apiRequest as written: the headers object is filled in step by step before the config is assembled. */
  method ApiRequest(endpoint: string, options: RequestOptions, token: Option<string>, outcome: FetchOutcome)
    returns (x: Exchange<Json>)
    ensures x == RequestExchange(endpoint, options, token, outcome)
  {
    var url := BaseUrl + endpoint;
    var headers := options.headers.GetOr([]);
    if !HasToken(token) {
      return Exchange([], Failure(ApiError("Authentication required", 401, None)));
    }
    headers := Put(headers, "Authorization", "Bearer " + token.value);
    if options.body != Some(MultipartForm) && LacksContentType(headers) {
      headers := Put(headers, "Content-Type", "application/json");
    }
    var config := Overlay(RequestOptions(None, Some(headers), None), options);
    x := Exchange([Http.Request(url, MethodOf(config), config.headers.value, config.body)], Classify(outcome));
  }

  /**
   * A caller that passes its own headers (as the form-encoded create and
   * update calls do) sends no Authorization header at all, whatever the token.
   */
  lemma CallerHeadersDropAuthorization(endpoint: string, options: RequestOptions, token: Option<string>, outcome: FetchOutcome)
    requires options.headers.Some? && Lookup(options.headers.value, "Authorization").None?
    requires HasToken(token)
    ensures var x := RequestExchange(endpoint, options, token, outcome);
            |x.sent| == 1 && Lookup(x.sent[0].headers, "Authorization").None?
  {
  }
}

=== FILE: clerk_middleware.dfy ===
/**
 * The Express middleware verifyAuthToken (src/middlewares/clerk.tsx): it
 * accepts an `Authorization: Bearer <token>` header (the header form of
 * section 2.1 of RFC 6750), with the scheme matched case-sensitively, and
 * otherwise answers 401 itself. The token is not verified any further.
 */
module ClerkMiddleware {
  import opened Wrappers
  import opened JsonValue
  import opened Text

  const BearerPrefix := "Bearer "
  const MissingHeaderMessage := "Missing or invalid authorization header"
  const NoTokenMessage := "No token provided"
  const PlaceholderUserId := "user-id-from-token"

  /** What the middleware decides for an Authorization header. */
  datatype Decision = Rejected(message: string) | Accepted(token: string)

  /**
   * The two checks in order. `replace("Bearer ", "")` removes the first
   * occurrence, which the first check has placed at the start.
   */
  function Decide(authorization: Option<string>): (d: Decision)
    ensures d.Rejected? ==> d.message == MissingHeaderMessage || d.message == NoTokenMessage
    ensures d == Rejected(MissingHeaderMessage) <==>
              (authorization.None? || authorization.value == "" || !StartsWith(authorization.value, BearerPrefix))
    ensures d.Accepted? <==>
              (authorization.Some? && StartsWith(authorization.value, BearerPrefix) && |authorization.value| > |BearerPrefix|)
    ensures d.Accepted? ==> authorization == Some(BearerPrefix + d.token) && d.token != ""
  {
    if authorization.None? || authorization.value == "" || !StartsWith(authorization.value, BearerPrefix) then
      Rejected(MissingHeaderMessage)
    else
      var token := authorization.value[|BearerPrefix|..];
      assert authorization.value == BearerPrefix + token;
      if token == "" then Rejected(NoTokenMessage) else Accepted(token)
  }

  /** A Bearer header built from a token gives that token back; an empty one is refused. */
  lemma BearerRoundTrip(token: string)
    ensures Decide(Some(BearerPrefix + token)) == if token == "" then Rejected(NoTokenMessage) else Accepted(token)
  {
    assert (BearerPrefix + token)[..|BearerPrefix|] == BearerPrefix;
    assert (BearerPrefix + token)[|BearerPrefix|..] == token;
  }

  /** The scheme is matched case-sensitively: a lower-case "bearer" is refused. */
  lemma LowerCaseSchemeRefused(token: string)
    ensures Decide(Some("bearer " + token)) == Rejected(MissingHeaderMessage)
  {
    assert ("bearer " + token)[0] != BearerPrefix[0];
  }

  /** The JSON body of a 401 answer. */
  function ErrorBody(message: string): Json {
    JObj(map["error" := JStr(message)])
  }

  class AuthenticatedRequest {
    var authorization: Option<string>
    var userId: Option<string>

    constructor (authorization: Option<string>)
      ensures this.authorization == authorization && userId.None?
    {
      this.authorization := authorization;
      userId := None;
    }
  }

  class Response {
    var status: Option<int>
    var body: Option<Json>

    constructor ()
      ensures status.None? && body.None?
    {
      status := None;
      body := None;
    }

    /** res.status(code).json(body) */
    method Send(code: int, json: Json)
      modifies this
      ensures status == Some(code) && body == Some(json)
    {
      status := Some(code);
      body := Some(json);
    }
  }

  /**
   * verifyAuthToken(req, res, next); `nextCalls` counts the calls to next.
   * Exactly one of the two happens: a 401 answer, or the user id is set and
   * next is called once.
   */
  method VerifyAuthToken(req: AuthenticatedRequest, res: Response) returns (nextCalls: nat)
    modifies req, res
    ensures req.authorization == old(req.authorization)
    ensures Decide(req.authorization).Rejected? ==>
              nextCalls == 0 && res.status == Some(401)
              && res.body == Some(ErrorBody(Decide(req.authorization).message))
              && req.userId == old(req.userId)
    ensures Decide(req.authorization).Accepted? ==>
              nextCalls == 1 && req.userId == Some(PlaceholderUserId)
              && res.status == old(res.status) && res.body == old(res.body)
  {
    var authHeader := req.authorization;
    if authHeader.None? || authHeader.value == "" || !StartsWith(authHeader.value, BearerPrefix) {
      res.Send(401, ErrorBody(MissingHeaderMessage));
      return 0;
    }
    var token := authHeader.value[|BearerPrefix|..];
    if token == "" {
      res.Send(401, ErrorBody(NoTokenMessage));
      return 0;
    }
    req.userId := Some(PlaceholderUserId);
    nextCalls := 1;
  }
}

=== FILE: drawer_items.dfy ===
/**
 * The sidebar's own active-state rules
 * (src/layouts/main-layout/sidebar/DrawerItems.tsx). They agree with
 * ActiveRoute except that an empty path is never active here.
 */
module DrawerItems {
  import opened Wrappers
  import opened Text
  import opened ActiveRoute

  /** isActive(path): never for an absent, empty or "#!" path; otherwise the hook's prefix rule. */
  function IsActive(pathname: string, path: Option<string>): (b: bool)
    ensures b ==> path.Some? && path.value != "" && path.value != "#!" && StartsWith(pathname, path.value)
    ensures path.Some? && path.value != "" && path.value != "#!" ==> (b <==> IsRouteActive(pathname, path.value))
  {
    if path.None? || path.value == "" || path.value == "#!" then false
    else if path.value == "/" && pathname == "/" then true
    else if path.value != "/" && StartsWith(pathname, path.value) then true
    else false
  }

  /** hasActiveChild(items) */
  function HasActiveChild(pathname: string, items: Option<seq<SubMenuItem>>): (b: bool)
    ensures b <==> items.Some? && exists i :: 0 <= i < |items.value| && IsActive(pathname, Some(items.value[i].path))
  {
    if items.None? then false else AnyActive(pathname, items.value)
  }

  function AnyActive(pathname: string, items: seq<SubMenuItem>): (b: bool)
    ensures b <==> exists i :: 0 <= i < |items| && IsActive(pathname, Some(items[i].path))
  {
    if items == [] then false
    else if IsActive(pathname, Some(items[0].path)) then true
    else
      assert forall i :: 1 <= i < |items| ==> items[i] == items[1..][i - 1];
      AnyActive(pathname, items[1..])
  }

  /** A sub-entry with its `active` flag. */
  datatype ActiveSubItem = ActiveSubItem(item: SubMenuItem, active: bool)

  /** What the drawer renders for one sitemap entry. */
  datatype Entry =
    | Collapse(route: MenuItem, children: seq<ActiveSubItem>, active: bool)
    | Single(route: MenuItem, active: bool)

  /** `route.items.map(item => ({...item, active: isActive(item.path)}))` */
  function Annotate(pathname: string, items: seq<SubMenuItem>): (r: seq<ActiveSubItem>)
    ensures |r| == |items|
    ensures forall i :: 0 <= i < |items| ==> r[i].item == items[i] && r[i].active == IsActive(pathname, Some(items[i].path))
  {
    seq(|items|, i requires 0 <= i < |items| => ActiveSubItem(items[i], IsActive(pathname, Some(items[i].path))))
  }

  /** One iteration of the sitemap map: a collapsible entry when there are sub-entries. */
  function EntryFor(pathname: string, route: MenuItem): (e: Entry)
    ensures route.items.Some? <==> e.Collapse?
    ensures e.route == route
    ensures e.Collapse? ==> (e.active <==> exists i :: 0 <= i < |e.children| && e.children[i].active)
    ensures e.Single? ==> e.active == IsActive(pathname, route.path)
  {
    if route.items.Some? then
      Collapse(route, Annotate(pathname, route.items.value), HasActiveChild(pathname, route.items))
    else Single(route, IsActive(pathname, route.path))
  }

  /** The drawer's rule and the hook's agree on every path other than "", "#!" and the absent one. */
  lemma AgreesWithHook(pathname: string, path: string)
    requires path != "" && path != "#!"
    ensures IsActive(pathname, Some(path)) == IsRouteActive(pathname, path)
  {
  }

  /** Where they differ: the hook calls "" active everywhere, the drawer nowhere. */
  lemma EmptyPathDiffers(pathname: string)
    ensures IsRouteActive(pathname, "") && !IsActive(pathname, Some(""))
  {
  }
}

=== FILE: http.dfy ===
/**
 * The HTTP exchange as the data layer sees it. A request is what the code
 * hands to fetch; the outcome of fetch is an input. Every operation returns
 * an Exchange: the requests it actually sent and what it returned or threw,
 * so "never reaches the network" reads `sent == []`.
 */
module Http {
  import opened Wrappers
  import opened JsonValue
  import opened Pairs
  import opened Text

  /** The `body` of a RequestInit: JSON.stringify(data), a form-encoded string, or a FormData object. */
  datatype Body = JsonText(data: Json) | FormText(fields: seq<Pair>) | MultipartForm

  /** A RequestInit; None is a key that is absent (or undefined). */
  datatype RequestOptions = RequestOptions(verb: Option<string>, headers: Option<seq<Pair>>, body: Option<Body>)

  const NoOptions := RequestOptions(None, None, None)

  /** `{...base, ...over}` on two RequestInit objects: every key over has wins. */
  function Overlay(base: RequestOptions, over: RequestOptions): (r: RequestOptions)
    ensures r.verb == (if over.verb.Some? then over.verb else base.verb)
    ensures r.headers == (if over.headers.Some? then over.headers else base.headers)
    ensures r.body == (if over.body.Some? then over.body else base.body)
  {
    RequestOptions(
      if over.verb.Some? then over.verb else base.verb,
      if over.headers.Some? then over.headers else base.headers,
      if over.body.Some? then over.body else base.body)
  }

  /** A request as fetch receives it; a missing method is fetch's default, GET. */
  datatype Request = Request(url: string, verb: string, headers: seq<Pair>, body: Option<Body>)

  function MethodOf(options: RequestOptions): string {
    options.verb.GetOr("GET")
  }

  /** A received response: its status line, its text, and what response.json() gives (or its SyntaxError message). */
  datatype HttpResponse = HttpResponse(status: int, statusText: string, text: string, json: Result<Json, string>)

  /** What fetch does: resolve with a response, or reject (network failure, CORS, abort). */
  datatype FetchOutcome = Received(response: HttpResponse) | NetworkFailure(message: string)

  /** What the data layer throws: an ApiError with its status and error body, or any other Error. */
  datatype Error = ApiError(message: string, status: int, errorBody: Option<Json>) | PlainError(message: string)

  datatype Exchange<T> = Exchange(sent: seq<Request>, result: Result<T, Error>)

  /** response.ok */
  predicate IsOk(status: int) {
    200 <= status <= 299
  }

  /** String(j), as `new Error(j)` converts a truthy non-string message. */
  function JsString(j: Json): string
    decreases j, 1
  {
    match j
    case JUndefined => "undefined"
    case JNull => "null"
    case JBool(b) => if b then "true" else "false"
    case JNum(n) => IntToString(n)
    case JStr(s) => s
    case JArr(xs) => JoinElements(xs, j)
    case JObj(_) => "[object Object]"
  }

  /** Array.prototype.join(','), where null and undefined elements read as empty. */
  function JoinElements(xs: seq<Json>, whole: Json): string
    requires whole == JArr(xs) || (whole.JArr? && |xs| < |whole.elems| && xs == whole.elems[|whole.elems| - |xs|..])
    decreases whole, 0, |xs|
  {
    if xs == [] then ""
    else
      assert xs[0] in whole.elems;
      var head := if IsNullish(xs[0]) then "" else JsString(xs[0]);
      if |xs| == 1 then head else head + "," + JoinElements(xs[1..], whole)
  }

  function StatusLine(status: int, statusText: string): string {
    "HTTP " + IntToString(status) + ": " + statusText
  }

  /**
   * The message of the ApiError thrown for a non-2xx response:
   * errorData.message when truthy, else "HTTP <status>: <statusText>".
   */
  function ErrorMessage(errorData: Json, status: int, statusText: string): string {
    var m := Get(errorData, "message");
    if Truthy(m) then JsString(m) else StatusLine(status, statusText)
  }

  /**
   * How both request executors turn a fetch outcome into a value or an error:
   * non-2xx responses become an ApiError carrying the HTTP status and the
   * parsed error body ({} when it does not parse); 204 gives {} without
   * parsing; anything else that throws on the way (fetch itself, a body that
   * is not JSON, reading `message` of a null error body) becomes an ApiError
   * with status 0.
   */
  function Classify(outcome: FetchOutcome): (r: Result<Json, Error>)
    ensures r.Failure? ==> r.error.ApiError?
    ensures outcome.NetworkFailure? ==> r == Failure(ApiError(outcome.message, 0, None))
    ensures outcome.Received? && !IsOk(outcome.response.status) ==>
              r.Failure? && (r.error.status == outcome.response.status || r.error.status == 0)
    ensures outcome.Received? && !IsOk(outcome.response.status) && outcome.response.json != Success(JNull) ==>
              r.Failure? && r.error.status == outcome.response.status
              && r.error.errorBody == Some(if outcome.response.json.Success? then outcome.response.json.value else JObj(map[]))
    ensures outcome.Received? && !IsOk(outcome.response.status) && outcome.response.json == Success(JNull) ==>
              r == Failure(ApiError(NullReadMessage(JNull, "message"), 0, None))
    ensures outcome.Received? && outcome.response.status == 204 ==> r == Success(JObj(map[]))
    ensures r.Success? <==> outcome.Received? && IsOk(outcome.response.status)
                            && (outcome.response.status == 204 || outcome.response.json.Success?)
    ensures r.Success? && outcome.response.status != 204 ==> r.value == outcome.response.json.value
    ensures outcome.Received? && !IsOk(outcome.response.status) && outcome.response.json.Success?
            && Get(outcome.response.json.value, "message").JStr? && Get(outcome.response.json.value, "message").s != "" ==>
              r.error.message == Get(outcome.response.json.value, "message").s
    ensures outcome.Received? && !IsOk(outcome.response.status) && outcome.response.json.Failure? ==>
              r.error.message == StatusLine(outcome.response.status, outcome.response.statusText)
    ensures outcome.Received? && !IsOk(outcome.response.status) && outcome.response.json.Success?
            && outcome.response.json.value != JNull ==>
              var m := Get(outcome.response.json.value, "message");
              r.error.message == (if Truthy(m) then JsString(m) else StatusLine(outcome.response.status, outcome.response.statusText))
  {
    match outcome
    case NetworkFailure(msg) => Failure(ApiError(msg, 0, None))
    case Received(resp) =>
      if !IsOk(resp.status) then
        var errorData := if resp.json.Success? then resp.json.value else JObj(map[]);
        if errorData.JNull? then Failure(ApiError(NullReadMessage(errorData, "message"), 0, None))
        else Failure(ApiError(ErrorMessage(errorData, resp.status, resp.statusText), resp.status, Some(errorData)))
      else if resp.status == 204 then Success(JObj(map[]))
      else if resp.json.Failure? then Failure(ApiError(resp.json.error, 0, None))
      else Success(resp.json.value)
  }

  /** `if (token)` on an optional session token: absent and empty are falsy. */
  predicate HasToken(token: Option<string>) {
    token.Some? && token.value != ""
  }

  /** The `get` helper of both executors: `{ method: 'GET', ...options }`. */
  function GetOptions(options: RequestOptions): (r: RequestOptions)
    ensures r.verb == (if options.verb.Some? then options.verb else Some("GET"))
    ensures r.headers == options.headers && r.body == options.body
  {
    Overlay(RequestOptions(Some("GET"), None, None), options)
  }

  /**
   * The `post`, `put` and `patch` helpers of both executors: the data is
   * serialised only when truthy, and the caller's options are spread last.
   */
  function WriteOptions(verb: string, data: Json, options: RequestOptions): (r: RequestOptions)
    ensures r.verb == (if options.verb.Some? then options.verb else Some(verb))
    ensures options.body.None? ==> (r.body.Some? <==> Truthy(data))
    ensures options.body.None? && Truthy(data) ==> r.body == Some(JsonText(data))
    ensures options.body.Some? ==> r.body == options.body
    ensures r.headers == options.headers
  {
    Overlay(RequestOptions(Some(verb), None, if Truthy(data) then Some(JsonText(data)) else None), options)
  }

  /** The `delete` helper of both executors: `{ method: 'DELETE', ...options }`. */
  function DeleteOptions(options: RequestOptions): (r: RequestOptions)
    ensures r.verb == (if options.verb.Some? then options.verb else Some("DELETE"))
    ensures r.headers == options.headers && r.body == options.body
  {
    Overlay(RequestOptions(Some("DELETE"), None, None), options)
  }
}

=== FILE: inventory.dfy ===
/**
 * The inventory data layer shared by every inventory view
 * (src/lib/inventory.ts): the mapping of a capitalised backend record to an
 * inventory item, the stock status and its badge colour, the sample-data
 * filter and pagination, and the legacy list fetch that falls back to the
 * sample data whenever anything goes wrong.
 */
module Inventory {
  import opened Wrappers
  import opened JsonValue
  import opened Text
  import opened Js
  import opened Pairs
  import opened Http
  import opened ListResponse
  import opened UrlParams
  import Api

  const ItemsPerPage := 5

  /** An inventory item as mapped from a backend record; fields copied from the record stay untyped. */
  datatype InventoryItem = InventoryItem(
    id: Json,
    name: Json,
    category: Json,
    quantity: Json,
    price: int,
    status: string,
    supplier: Json,
    lastUpdated: string,
    unit: Json,
    measure: Json,
    location: Json)

  /** `q > bound` in JavaScript, for the quantities a record can carry. */
  predicate Exceeds(q: Json, bound: int) {
    ToNumber(q).Num? && ToNumber(q).v > bound as real
  }

  /** The stock status derived from a quantity with strict thresholds 50 and 10. */
  function StatusOf(quantity: Json): (s: string)
    ensures s == "In Stock" || s == "Low Stock" || s == "Out of Stock"
    ensures quantity.JNum? ==> (s == "In Stock" <==> quantity.n > 50)
    ensures quantity.JNum? ==> (s == "Low Stock" <==> 10 < quantity.n <= 50)
    ensures quantity.JNum? ==> (s == "Out of Stock" <==> quantity.n <= 10)
    ensures ToNumber(quantity).NaN? ==> s == "Out of Stock"
  {
    if Exceeds(quantity, 50) then "In Stock" else if Exceeds(quantity, 10) then "Low Stock" else "Out of Stock"
  }

  /** getStatusBadgeColor */
  function BadgeColor(status: string): (c: string)
    ensures c == "success" <==> status == "In Stock"
    ensures c == "warning" <==> status == "Low Stock"
    ensures c == "error" <==> status == "Out of Stock"
    ensures c == "light" <==> status != "In Stock" && status != "Low Stock" && status != "Out of Stock"
  {
    if status == "In Stock" then "success"
    else if status == "Low Stock" then "warning"
    else if status == "Out of Stock" then "error"
    else "light"
  }

  /** A status derived from a quantity never gets the neutral colour. */
  lemma DerivedStatusColoured(quantity: Json)
    ensures BadgeColor(StatusOf(quantity)) != "light"
  {
  }

  /** The TypeError of calling .split on a truthy CreatedAt that is not a string. */
  const CreatedAtNotText := "backendItem.CreatedAt.split is not a function"

  /**
   * mapBackendItem, with `today` the date part of the current time. Reading
   * a field of null throws, and so does splitting a CreatedAt that is not a
   * string.
   */
  function MapBackendItem(record: Json, today: string): (r: Result<InventoryItem, string>)
    ensures r.Failure? <==> IsNullish(record) || (Truthy(Get(record, "CreatedAt")) && !Get(record, "CreatedAt").JStr?)
    ensures r.Success? ==>
              var it := r.value;
              it.id == Get(record, "ID") && it.name == Get(record, "Name") && it.category == Get(record, "Category")
              && it.quantity == Get(record, "Quantity") && it.unit == Get(record, "Unit")
              && it.measure == Get(record, "Measure") && it.location == Get(record, "Location")
              && it.price == 0 && it.status == StatusOf(Get(record, "Quantity"))
    ensures r.Success? ==> (Truthy(Get(record, "Location")) ==> r.value.supplier == Get(record, "Location"))
                           && (!Truthy(Get(record, "Location")) ==> r.value.supplier == JStr("Unknown"))
    ensures r.Success? && !Truthy(Get(record, "CreatedAt")) ==> r.value.lastUpdated == today
    ensures r.Success? && Truthy(Get(record, "CreatedAt")) ==>
              var c := Get(record, "CreatedAt").s;
              var d := r.value.lastUpdated;
              StartsWith(c, d) && 'T' !in d && (|d| < |c| ==> c[|d|] == 'T')
  {
    if IsNullish(record) then Failure(NullReadMessage(record, "ID"))
    else
      var createdAt := Get(record, "CreatedAt");
      if Truthy(createdAt) && !createdAt.JStr? then Failure(CreatedAtNotText)
      else
        Success(InventoryItem(
          Get(record, "ID"), Get(record, "Name"), Get(record, "Category"), Get(record, "Quantity"), 0,
          StatusOf(Get(record, "Quantity")),
          Or(Get(record, "Location"), JStr("Unknown")),
          if Truthy(createdAt) then BeforeFirst(createdAt.s, 'T') else today,
          Get(record, "Unit"), Get(record, "Measure"), Get(record, "Location")))
  }

  /** The fields of an item that the search and status filters read. */
  datatype ItemSummary = ItemSummary(id: int, name: string, category: string, status: string)

  /**
   * What a list call returns per row: a record passed through unmapped, a
   * mapped backend record, or an item of the sample data.
   */
  datatype Row = Raw(record: Json) | Mapped(item: InventoryItem) | Sample(summary: ItemSummary)

  function KeepRow(record: Json): Result<Row, string> {
    Success(Raw(record))
  }

  function MapRow(record: Json, today: string): Result<Row, string> {
    match MapBackendItem(record, today)
    case Success(it) => Success(Mapped(it))
    case Failure(e) => Failure(e)
  }

  /** Name, category or decimal id contain the search, the first two ignoring (ASCII) case. */
  predicate MatchesSearch(item: ItemSummary, search: string) {
    Contains(ToLower(item.name), ToLower(search))
    || Contains(IntToString(item.id), search)
    || Contains(ToLower(item.category), ToLower(search))
  }

  predicate MatchesStatus(item: ItemSummary, status: string) {
    status == "All" || item.status == status
  }

  predicate Matches(item: ItemSummary, search: string, status: string) {
    MatchesSearch(item, search) && MatchesStatus(item, status)
  }

  /** a occurs in b in the same order, possibly with gaps. */
  predicate IsSubsequence<T(==)>(a: seq<T>, b: seq<T>)
    decreases |b|
  {
    a == [] || (b != [] && ((a[0] == b[0] && IsSubsequence(a[1..], b[1..])) || IsSubsequence(a, b[1..])))
  }

  /** data.filter(item => matchesSearch && matchesStatus) */
  function FilterItems(data: seq<ItemSummary>, search: string, status: string): (r: seq<ItemSummary>)
    ensures IsSubsequence(r, data)
    ensures forall i :: 0 <= i < |r| ==> Matches(r[i], search, status)
    ensures forall i :: 0 <= i < |data| && Matches(data[i], search, status) ==> data[i] in r
    ensures forall x :: multiset(r)[x] == if Matches(x, search, status) then multiset(data)[x] else 0
    decreases |data|
  {
    if data == [] then []
    else
      var rest := FilterItems(data[1..], search, status);
      var r := if Matches(data[0], search, status) then [data[0]] + rest else rest;
      FilterStep(data, rest, r, search, status);
      FilterCountsStep(data[0], data[1..], rest, search, status);
      assert data == [data[0]] + data[1..];
      KeptFromCounts(data, r, search, status);
      r
  }

  /** One step of the filter: keeping or dropping the head keeps the result an all-matching subsequence. */
  lemma FilterStep(data: seq<ItemSummary>, rest: seq<ItemSummary>, r: seq<ItemSummary>, search: string, status: string)
    requires data != []
    requires IsSubsequence(rest, data[1..])
    requires forall i :: 0 <= i < |rest| ==> Matches(rest[i], search, status)
    requires r == if Matches(data[0], search, status) then [data[0]] + rest else rest
    ensures IsSubsequence(r, data)
    ensures forall i :: 0 <= i < |r| ==> Matches(r[i], search, status)
  {
    if Matches(data[0], search, status) {
      assert r[1..] == rest;
    }
  }

  /** One step of the filter: keeping or dropping the head keeps every multiplicity right. */
  lemma FilterCountsStep(x: ItemSummary, tail: seq<ItemSummary>, rest: seq<ItemSummary>, search: string, status: string)
    requires forall y :: multiset(rest)[y] == if Matches(y, search, status) then multiset(tail)[y] else 0
    ensures var r := if Matches(x, search, status) then [x] + rest else rest;
            forall y :: multiset(r)[y] == if Matches(y, search, status) then multiset([x] + tail)[y] else 0
  {
    assert multiset([x] + tail) == multiset{x} + multiset(tail);
    assert multiset([x] + rest) == multiset{x} + multiset(rest);
  }

  /** With the multiplicities right, every matching item of the input is in the result. */
  lemma KeptFromCounts(data: seq<ItemSummary>, r: seq<ItemSummary>, search: string, status: string)
    requires forall x :: multiset(r)[x] == if Matches(x, search, status) then multiset(data)[x] else 0
    ensures forall i :: 0 <= i < |data| && Matches(data[i], search, status) ==> data[i] in r
  {
    forall i | 0 <= i < |data| && Matches(data[i], search, status)
      ensures data[i] in r
    {
      assert data[i] in multiset(data);
      assert multiset(r)[data[i]] > 0;
    }
  }

  /** With an empty search and "All", the filter keeps every item. */
  lemma {:induction false} FilterKeepsAll(data: seq<ItemSummary>)
    ensures FilterItems(data, "", "All") == data
    decreases |data|
  {
    if data != [] {
      ContainsEmpty(ToLower(data[0].name));
      FilterKeepsAll(data[1..]);
    }
  }

  /** The filters a list call receives; absent fields take their defaults. */
  datatype InventoryFilters = InventoryFilters(search: Option<string>, status: Option<string>, page: Option<int>, limit: Option<int>)

  /** The filters after destructuring with defaults. */
  datatype ListQuery = ListQuery(search: string, status: string, page: int, limit: int)

  function Effective(f: InventoryFilters): ListQuery {
    ListQuery(f.search.GetOr(""), f.status.GetOr("All"), f.page.GetOr(1), f.limit.GetOr(ItemsPerPage))
  }

  /** The rows of one sample-data page and its pagination record. */
  function Fallback(data: seq<ItemSummary>, filters: InventoryFilters): (r: Page<ItemSummary>)
    ensures var q := Effective(filters);
            var filtered := FilterItems(data, q.search, q.status);
            var start := (q.page - 1) * ItemsPerPage;
            r.pagination.totalItems == |filtered|
            && (r.pagination.totalPages - 1) * ItemsPerPage < |filtered| <= r.pagination.totalPages * ItemsPerPage
            && r.pagination.itemsPerPage == ItemsPerPage
            && r.pagination.currentPage == q.page
            && r.pagination.startIndex == start + 1
            && r.pagination.endIndex == Min(q.page * ItemsPerPage, |filtered|)
            && (q.page >= 1 ==> r.items == filtered[Min(start, |filtered|)..Min(start + ItemsPerPage, |filtered|)])
    ensures |r.items| <= ItemsPerPage
    ensures var q := Effective(filters);
            forall i :: 0 <= i < |r.items| ==> Matches(r.items[i], q.search, q.status)
  {
    var q := Effective(filters);
    var filtered := FilterItems(data, q.search, q.status);
    var n := |filtered|;
    var start := (q.page - 1) * ItemsPerPage;
    var items := Slice(filtered, start, start + ItemsPerPage);
    Page(items, Pagination(q.page, CeilDiv(n, ItemsPerPage), n, ItemsPerPage, start + 1, Min(start + ItemsPerPage, n)))
  }

  function SampleRows(items: seq<ItemSummary>): (rows: seq<Row>)
    ensures |rows| == |items| && forall i :: 0 <= i < |items| ==> rows[i] == Sample(items[i])
  {
    seq(|items|, i requires 0 <= i < |items| => Sample(items[i]))
  }

  /**
   * The query of the legacy list call: search and status only when set, page
   * and limit always, in that order.
   */
  function LegacyQueryPairs(q: ListQuery): (pairs: seq<Pair>)
    ensures Lookup(pairs, "search") == (if q.search != "" then Some(q.search) else None)
    ensures Lookup(pairs, "status") == (if q.status != "" && q.status != "All" then Some(q.status) else None)
    ensures Lookup(pairs, "page") == Some(IntToString(q.page))
    ensures Lookup(pairs, "limit") == Some(IntToString(q.limit))
    ensures Names(pairs) == (if q.search != "" then ["search"] else [])
                            + (if q.status != "" && q.status != "All" then ["status"] else []) + ["page", "limit"]
  {
    var se := if q.search != "" then [("search", q.search)] else [];
    var st := if q.status != "" && q.status != "All" then [("status", q.status)] else [];
    var pg := [("page", IntToString(q.page))];
    var lm := [("limit", IntToString(q.limit))];
    assert "search"[1] != "status"[1] && "search"[0] != "page"[0] && "search"[0] != "limit"[0];
    assert "status"[0] != "page"[0] && "status"[0] != "limit"[0] && "page"[0] != "limit"[0];
    LookupOptionalPairs(se, st, pg, lm, "search", "status", "page", "limit");
    NamesConcat4(se, st, pg, lm);
    se + st + pg + lm
  }

  /** The query as the legacy fetch builds it, appending to a fresh URLSearchParams. */
  method BuildLegacyQuery(q: ListQuery) returns (pairs: seq<Pair>)
    ensures pairs == LegacyQueryPairs(q)
  {
    var params := new UrlSearchParams([]);
    if q.search != "" {
      params.Append("search", q.search);
    }
    if q.status != "" && q.status != "All" {
      params.Append("status", q.status);
    }
    params.Append("page", IntToString(q.page));
    params.Append("limit", IntToString(q.limit));
    pairs := params.entries;
  }

  /** How a backend reads a list query back, with its own defaults for what is absent. */
  function ReadListQuery(pairs: seq<Pair>, defaultLimit: int): ListQuery {
    ListQuery(
      Lookup(pairs, "search").GetOr(""),
      Lookup(pairs, "status").GetOr("All"),
      if Lookup(pairs, "page").Some? then ParseInt(Lookup(pairs, "page").value) else 1,
      if Lookup(pairs, "limit").Some? then ParseInt(Lookup(pairs, "limit").value) else defaultLimit)
  }

  /** The query of a ListQuery whose status is not "" reads back as that ListQuery. */
  lemma LegacyQueryRoundTrip(q: ListQuery)
    requires q.status != ""
    ensures ReadListQuery(LegacyQueryPairs(q), ItemsPerPage) == q
  {
    ParseIntToString(q.page);
    ParseIntToString(q.limit);
  }

  /** `/inventory/list` followed by `?query` only when the query is non-empty. */
  function ListEndpoint(pairs: seq<Pair>): (e: string)
    ensures pairs == [] ==> e == "/inventory/list"
    ensures pairs != [] ==> e == "/inventory/list?" + Serialize(pairs)
  {
    SerializeEmpty(pairs);
    var qs := Serialize(pairs);
    "/inventory/list" + (if qs != "" then "?" + qs else "")
  }

  /**
   * fetchInventoryItems of the legacy module: a GET through the generic
   * executor with the stored client token; any failure on the way returns
   * the sample-data page instead.
   */
  function LegacyFetch(filters: InventoryFilters, clientToken: Option<string>, outcome: FetchOutcome,
                       today: string, sample: seq<ItemSummary>): (x: Exchange<Page<Row>>)
    ensures x.result.Success?
    ensures |x.sent| == 1 && x.sent[0].url == Api.BaseUrl + ListEndpoint(LegacyQueryPairs(Effective(filters)))
              && x.sent[0].verb == "GET"
    ensures Classify(outcome).Failure? ==>
              x.result.value == Page(SampleRows(Fallback(sample, filters).items), Fallback(sample, filters).pagination)
    ensures Classify(outcome).Success? ==>
              var q := Effective(filters);
              var n := Normalized(Classify(outcome).value, "items", q.page, q.limit, KeepRow, j => MapRow(j, today));
              x.result.value == if n.Success? then n.value
                                else Page(SampleRows(Fallback(sample, filters).items), Fallback(sample, filters).pagination)
  {
    var q := Effective(filters);
    var ex := Api.RequestExchange(ListEndpoint(LegacyQueryPairs(q)), GetOptions(NoOptions), None, clientToken, outcome);
    var fallback := Fallback(sample, filters);
    var fallbackPage := Page(SampleRows(fallback.items), fallback.pagination);
    match ex.result
    case Failure(_) => Exchange(ex.sent, Success(fallbackPage))
    case Success(response) =>
      match Normalized(response, "items", q.page, q.limit, KeepRow, j => MapRow(j, today))
      case Success(page) => Exchange(ex.sent, Success(page))
      case Failure(_) => Exchange(ex.sent, Success(fallbackPage))
  }

  /** The legacy list fetch as written: build the query, send, normalise, or fall back. */
  method FetchInventoryItems(filters: InventoryFilters, clientToken: Option<string>, outcome: FetchOutcome,
                             today: string, sample: seq<ItemSummary>) returns (x: Exchange<Page<Row>>)
    ensures x == LegacyFetch(filters, clientToken, outcome, today, sample)
  {
    var q := Effective(filters);
    var pairs := BuildLegacyQuery(q);
    var endpoint := ListEndpoint(pairs);
    var ex := Api.RequestExchange(endpoint, GetOptions(NoOptions), None, clientToken, outcome);
    if ex.result.Failure? {
      var fallback := Fallback(sample, filters);
      return Exchange(ex.sent, Success(Page(SampleRows(fallback.items), fallback.pagination)));
    }
    var page := Normalize(ex.result.value, "items", q.page, q.limit, KeepRow, j => MapRow(j, today));
    if page.Failure? {
      var fallback := Fallback(sample, filters);
      return Exchange(ex.sent, Success(Page(SampleRows(fallback.items), fallback.pagination)));
    }
    x := Exchange(ex.sent, Success(page.value));
  }
}

=== FILE: inventory_client.dfy ===
/**
 * The client-side inventory hook (src/lib/inventory-client.ts): list, get,
 * create, update and delete through the authenticated executor. Writes are
 * validated and turned into a fixed six-field form before anything is sent;
 * list failures are rethrown with a service prefix and never replaced by
 * sample data.
 */
module InventoryClient {
  import opened Wrappers
  import opened JsonValue
  import opened Text
  import opened Pairs
  import opened Http
  import opened ListResponse
  import opened UrlParams
  import opened Inventory
  import ApiClient

  /**
   * The query of the list call: each parameter only when it differs from its
   * default, in the order search, status, page, limit.
   */
  function ClientQueryPairs(q: ListQuery): (pairs: seq<Pair>)
    ensures Lookup(pairs, "search") == (if q.search != "" then Some(q.search) else None)
    ensures Lookup(pairs, "status") == (if q.status != "" && q.status != "All" then Some(q.status) else None)
    ensures Lookup(pairs, "page") == (if q.page > 1 then Some(IntToString(q.page)) else None)
    ensures Lookup(pairs, "limit") == (if q.limit != ItemsPerPage then Some(IntToString(q.limit)) else None)
    ensures Names(pairs) == (if q.search != "" then ["search"] else []) + (if q.status != "" && q.status != "All" then ["status"] else [])
                            + (if q.page > 1 then ["page"] else []) + (if q.limit != ItemsPerPage then ["limit"] else [])
    ensures pairs == [] <==> q.search == "" && (q.status == "" || q.status == "All") && q.page <= 1 && q.limit == ItemsPerPage
  {
    var se := if q.search != "" then [("search", q.search)] else [];
    var st := if q.status != "" && q.status != "All" then [("status", q.status)] else [];
    var pg := if q.page > 1 then [("page", IntToString(q.page))] else [];
    var lm := if q.limit != ItemsPerPage then [("limit", IntToString(q.limit))] else [];
    assert "search"[1] != "status"[1] && "search"[0] != "page"[0] && "search"[0] != "limit"[0];
    assert "status"[0] != "page"[0] && "status"[0] != "limit"[0] && "page"[0] != "limit"[0];
    LookupOptionalPairs(se, st, pg, lm, "search", "status", "page", "limit");
    NamesConcat4(se, st, pg, lm);
    se + st + pg + lm
  }

  /** The query as the hook builds it, appending to a fresh URLSearchParams. */
  method BuildClientQuery(q: ListQuery) returns (pairs: seq<Pair>)
    ensures pairs == ClientQueryPairs(q)
  {
    var params := new UrlSearchParams([]);
    if q.search != "" {
      params.Append("search", q.search);
    }
    if q.status != "" && q.status != "All" {
      params.Append("status", q.status);
    }
    if q.page > 1 {
      params.Append("page", IntToString(q.page));
    }
    if q.limit != ItemsPerPage {
      params.Append("limit", IntToString(q.limit));
    }
    pairs := params.entries;
  }

  /** Omitting defaults loses nothing: the query reads back as the filters, with pages below 2 read as page 1. */
  lemma ClientQueryRoundTrip(q: ListQuery)
    requires q.status != ""
    ensures ReadListQuery(ClientQueryPairs(q), ItemsPerPage) == q.(page := if q.page > 1 then q.page else 1)
  {
    ParseIntToString(q.page);
    ParseIntToString(q.limit);
  }

  /** The list call without filters goes to the bare endpoint. */
  lemma DefaultFiltersBareEndpoint()
    ensures ListEndpoint(ClientQueryPairs(Effective(InventoryFilters(None, None, None, None)))) == "/inventory/list"
  {
  }

  const ListErrorPrefix := "Inventory service error: "

  /** The catch of the list call: every failure is rethrown as an Error with the service prefix. */
  function WrapListError(message: string): (e: Error)
    ensures e.PlainError? && StartsWith(e.message, ListErrorPrefix) && e.message[|ListErrorPrefix|..] == message
  {
    PlainError(ListErrorPrefix + message)
  }

  /** fetchInventoryItems(filters) with the session token and the outcome of its fetch. */
  function FetchListExchange(filters: InventoryFilters, token: Option<string>, outcome: FetchOutcome, today: string): (x: Exchange<Page<Row>>)
    ensures x.sent == ApiClient.RequestExchange(ListEndpoint(ClientQueryPairs(Effective(filters))), NoOptions, token, outcome).sent
    ensures x.result.Failure? ==> x.result.error.PlainError? && StartsWith(x.result.error.message, ListErrorPrefix)
    ensures !HasToken(token) ==> x.result == Failure(WrapListError("Authentication required"))
    ensures HasToken(token) && Classify(outcome).Failure? ==>
              x.result == Failure(WrapListError(Classify(outcome).error.message))
    ensures HasToken(token) && Classify(outcome).Success? ==>
              var q := Effective(filters);
              match Normalized(Classify(outcome).value, "items", q.page, q.limit, KeepRow, j => MapRow(j, today))
              case Success(page) => x.result == Success(page)
              case Failure(m) => x.result == Failure(WrapListError(m))
  {
    var q := Effective(filters);
    var ex := ApiClient.RequestExchange(ListEndpoint(ClientQueryPairs(q)), NoOptions, token, outcome);
    match ex.result
    case Failure(e) => Exchange(ex.sent, Failure(WrapListError(e.message)))
    case Success(response) =>
      match Normalized(response, "items", q.page, q.limit, KeepRow, j => MapRow(j, today))
      case Success(page) => Exchange(ex.sent, Success(page))
      case Failure(m) => Exchange(ex.sent, Failure(WrapListError(m)))
  }

  method FetchInventoryItems(filters: InventoryFilters, token: Option<string>, outcome: FetchOutcome, today: string)
    returns (x: Exchange<Page<Row>>)
    ensures x == FetchListExchange(filters, token, outcome, today)
  {
    var q := Effective(filters);
    var pairs := BuildClientQuery(q);
    var ex := ApiClient.ApiRequest(ListEndpoint(pairs), NoOptions, token, outcome);
    if ex.result.Failure? {
      return Exchange(ex.sent, Failure(WrapListError(ex.result.error.message)));
    }
    var page := Normalize(ex.result.value, "items", q.page, q.limit, KeepRow, j => MapRow(j, today));
    if page.Failure? {
      return Exchange(ex.sent, Failure(WrapListError(page.error)));
    }
    x := Exchange(ex.sent, Success(page.value));
  }

  const InvalidResponseFormat := "Invalid response format"

  /** `if (response.data) return mapBackendItem(response.data); throw new Error('Invalid response format')` */
  function ItemFromResponse(response: Json, today: string): (r: Result<InventoryItem, Error>)
    ensures r.Success? <==> !IsNullish(response) && Truthy(Get(response, "data")) && MapBackendItem(Get(response, "data"), today).Success?
    ensures r.Success? ==> r.value == MapBackendItem(Get(response, "data"), today).value
    ensures !IsNullish(response) && !Truthy(Get(response, "data")) ==> r == Failure(PlainError(InvalidResponseFormat))
  {
    match Read(response, "data")
    case Failure(m) => Failure(PlainError(m))
    case Success(data) =>
      if !Truthy(data) then Failure(PlainError(InvalidResponseFormat))
      else match MapBackendItem(data, today)
        case Success(item) => Success(item)
        case Failure(m) => Failure(PlainError(m))
  }

  function ItemEndpoint(id: int): string {
    "/inventory/" + IntToString(id)
  }

  /** fetchInventoryItem(id): request failures are rethrown unchanged. */
  function FetchItemExchange(id: int, token: Option<string>, outcome: FetchOutcome, today: string): (x: Exchange<InventoryItem>)
    ensures x.sent == ApiClient.RequestExchange(ItemEndpoint(id), NoOptions, token, outcome).sent
    ensures ApiClient.RequestExchange(ItemEndpoint(id), NoOptions, token, outcome).result.Failure? ==>
              x.result == Failure(ApiClient.RequestExchange(ItemEndpoint(id), NoOptions, token, outcome).result.error)
    ensures ApiClient.RequestExchange(ItemEndpoint(id), NoOptions, token, outcome).result.Success? ==>
              x.result == ItemFromResponse(ApiClient.RequestExchange(ItemEndpoint(id), NoOptions, token, outcome).result.value, today)
  {
    var ex := ApiClient.RequestExchange(ItemEndpoint(id), NoOptions, token, outcome);
    match ex.result
    case Failure(e) => Exchange(ex.sent, Failure(e))
    case Success(response) => Exchange(ex.sent, ItemFromResponse(response, today))
  }

  /** The fields of an item a caller hands to create or update; None is an absent field. */
  datatype ItemDraft = ItemDraft(
    name: Option<string>,
    category: Option<string>,
    quantity: Option<JsNumber>,
    unit: Option<string>,
    measure: Option<string>,
    location: Option<string>,
    supplier: Option<string>)

  /** The validated values of the six form fields the backend reads. */
  datatype FormFields = FormFields(name: string, unit: string, quantity: int, measure: string, category: string, location: string)

  const FormFieldNames := ["Name", "Unit", "Quantity", "Measure", "Category", "Location"]

  /** The form body: exactly the six fields, in this order, the quantity as a decimal integer. */
  function Payload(f: FormFields): (q: seq<Pair>)
    ensures |q| == |FormFieldNames| && forall i :: 0 <= i < |q| ==> q[i].0 == FormFieldNames[i]
  {
    [("Name", f.name), ("Unit", f.unit), ("Quantity", IntToString(f.quantity)),
     ("Measure", f.measure), ("Category", f.category), ("Location", f.location)]
  }

  /** How the backend reads such a form back. */
  function ReadPayload(q: seq<Pair>): Option<FormFields> {
    if |q| == |FormFieldNames| && forall i :: 0 <= i < |q| ==> q[i].0 == FormFieldNames[i] then
      Some(FormFields(q[0].1, q[1].1, ParseInt(q[2].1), q[3].1, q[4].1, q[5].1))
    else None
  }

  lemma PayloadRoundTrip(f: FormFields)
    ensures ReadPayload(Payload(f)) == Some(f)
  {
    ParseIntToString(f.quantity);
  }

  /** The form as the hook fills it, appending to a fresh URLSearchParams. */
  method BuildPayload(f: FormFields) returns (body: seq<Pair>)
    ensures body == Payload(f)
  {
    var formData := new UrlSearchParams([]);
    formData.Append("Name", f.name);
    formData.Append("Unit", f.unit);
    formData.Append("Quantity", IntToString(f.quantity));
    formData.Append("Measure", f.measure);
    formData.Append("Category", f.category);
    formData.Append("Location", f.location);
    body := formData.entries;
  }

  const QuantityInvalid := "Quantity must be a valid non-negative number"
  const NameRequired := "Name is required and cannot be empty"
  const CategoryRequired := "Category is required and cannot be empty"

  /** `s || fallback` on an optional string field. */
  function TextOr(s: Option<string>, fallback: string): (r: string)
    ensures s.Some? && s.value != "" ==> r == s.value
    ensures !(s.Some? && s.value != "") ==> r == fallback
  {
    if s.Some? && s.value != "" then s.value else fallback
  }

  predicate IsTrimmed(s: string) {
    s == [] || (!IsSpace(s[0]) && !IsSpace(s[|s| - 1]))
  }

  /** `item.quantity || 0`: absent, 0 and NaN all become 0. */
  function CreateQuantity(q: Option<JsNumber>): (v: real)
    ensures q.Some? && q.value.Num? ==> v == q.value.v
    ensures q.None? || q.value.NaN? ==> v == 0.0
  {
    if q.Some? && q.value.Num? && q.value.v != 0.0 then q.value.v else 0.0
  }

  /** The validation and defaulting of createInventoryItem, in its order. */
  function PrepareCreate(d: ItemDraft): (r: Result<FormFields, Error>)
    ensures r.Failure? ==> r.error == PlainError(QuantityInvalid) || r.error == PlainError(NameRequired)
                           || r.error == PlainError(CategoryRequired)
    ensures CreateQuantity(d.quantity) < 0.0 <==> r == Failure(PlainError(QuantityInvalid))
    ensures r.Success? <==> CreateQuantity(d.quantity) >= 0.0 && Trim(TextOr(d.name, "")) != "" && Trim(TextOr(d.category, "")) != ""
    ensures r.Success? ==>
              var f := r.value;
              f.name == Trim(TextOr(d.name, "")) && f.unit == Trim(TextOr(d.unit, "piece"))
              && f.measure == Trim(TextOr(d.measure, "unit")) && f.category == Trim(TextOr(d.category, ""))
              && f.location == Trim(TextOr(d.location, TextOr(d.supplier, "")))
              && f.quantity >= 0 && f.quantity as real <= CreateQuantity(d.quantity) < f.quantity as real + 1.0
    ensures r.Success? ==> r.value.name != "" && r.value.category != ""
    ensures CreateQuantity(d.quantity) >= 0.0 && Trim(TextOr(d.name, "")) == "" ==> r == Failure(PlainError(NameRequired))
    ensures CreateQuantity(d.quantity) >= 0.0 && Trim(TextOr(d.name, "")) != "" && Trim(TextOr(d.category, "")) == "" ==>
              r == Failure(PlainError(CategoryRequired))
  {
    var quantity := CreateQuantity(d.quantity);
    if quantity < 0.0 then Failure(PlainError(QuantityInvalid))
    else
      var name := Trim(TextOr(d.name, ""));
      var unit := Trim(TextOr(d.unit, "piece"));
      var measure := Trim(TextOr(d.measure, "unit"));
      var category := Trim(TextOr(d.category, ""));
      var location := Trim(TextOr(d.location, TextOr(d.supplier, "")));
      if name == "" then Failure(PlainError(NameRequired))
      else if category == "" then Failure(PlainError(CategoryRequired))
      else Success(FormFields(name, unit, quantity.Floor, measure, category, location))
  }

  /** Every field the create form sends has been trimmed at both ends. */
  lemma CreateFieldsTrimmed(d: ItemDraft)
    requires PrepareCreate(d).Success?
    ensures var f := PrepareCreate(d).value;
            IsTrimmed(f.name) && IsTrimmed(f.unit) && IsTrimmed(f.measure) && IsTrimmed(f.category) && IsTrimmed(f.location)
  {
  }

  /** NaN is never rejected: it is replaced by 0 before validation. */
  lemma CreateNaNQuantityIsZero(d: ItemDraft)
    requires d.quantity == Some(NaN) && Trim(TextOr(d.name, "")) != "" && Trim(TextOr(d.category, "")) != ""
    ensures PrepareCreate(d).Success? && PrepareCreate(d).value.quantity == 0
  {
  }

  const FormContentType := ("Content-Type", "application/x-www-form-urlencoded")

  function FormOptions(verb: string, f: FormFields): RequestOptions {
    RequestOptions(Some(verb), Some([FormContentType]), Some(FormText(Payload(f))))
  }

  /** createInventoryItem(item): nothing is sent unless validation passes. */
  function CreateExchange(d: ItemDraft, token: Option<string>, outcome: FetchOutcome, today: string): (x: Exchange<InventoryItem>)
    ensures PrepareCreate(d).Failure? ==> x == Exchange([], Failure(PrepareCreate(d).error))
    ensures PrepareCreate(d).Success? && HasToken(token) ==>
              |x.sent| == 1 && x.sent[0].url == ApiClient.BaseUrl + "/inventory/create" && x.sent[0].verb == "POST"
              && x.sent[0].body == Some(FormText(Payload(PrepareCreate(d).value)))
              && x.sent[0].headers == [FormContentType]
    ensures PrepareCreate(d).Success? && !HasToken(token) ==>
              x == Exchange([], Failure(ApiError("Authentication required", 401, None)))
    ensures PrepareCreate(d).Success? && HasToken(token) && Classify(outcome).Failure? ==>
              x.result == Failure(Classify(outcome).error)
    ensures PrepareCreate(d).Success? && HasToken(token) && Classify(outcome).Success? ==>
              x.result == ItemFromResponse(Classify(outcome).value, today)
    ensures x.result.Success? ==> PrepareCreate(d).Success? && HasToken(token) && Classify(outcome).Success?
  {
    match PrepareCreate(d)
    case Failure(e) => Exchange([], Failure(e))
    case Success(fields) =>
      var ex := ApiClient.RequestExchange("/inventory/create", FormOptions("POST", fields), token, outcome);
      match ex.result
      case Failure(e) => Exchange(ex.sent, Failure(e))
      case Success(response) => Exchange(ex.sent, ItemFromResponse(response, today))
  }

  method CreateInventoryItem(d: ItemDraft, token: Option<string>, outcome: FetchOutcome, today: string)
    returns (x: Exchange<InventoryItem>)
    ensures x == CreateExchange(d, token, outcome, today)
  {
    var prepared := PrepareCreate(d);
    if prepared.Failure? {
      return Exchange([], Failure(prepared.error));
    }
    var formData := BuildPayload(prepared.value);
    var options := RequestOptions(Some("POST"), Some([FormContentType]), Some(FormText(formData)));
    var ex := ApiClient.ApiRequest("/inventory/create", options, token, outcome);
    if ex.result.Failure? {
      return Exchange(ex.sent, Failure(ex.result.error));
    }
    x := Exchange(ex.sent, ItemFromResponse(ex.result.value, today));
  }

  /** The create form goes out with its own Content-Type only, so without the session token. */
  lemma CreateSendsNoAuthorization(d: ItemDraft, token: Option<string>, outcome: FetchOutcome, today: string)
    requires PrepareCreate(d).Success? && HasToken(token)
    ensures var x := CreateExchange(d, token, outcome, today);
            |x.sent| == 1 && Lookup(x.sent[0].headers, "Authorization").None?
  {
  }

  /** `item.quantity !== undefined ? item.quantity : currentItem.quantity` */
  function UpdateQuantity(partial: Option<JsNumber>, current: Json): (v: JsNumber)
    ensures partial.Some? ==> v == partial.value
    ensures partial.None? ==> v == ToNumber(current)
  {
    if partial.Some? then partial.value else ToNumber(current)
  }

  /** A current quantity stored as decimal text is the number it spells. */
  lemma UpdateQuantityFromText(n: int)
    ensures UpdateQuantity(None, JStr(IntToString(n))) == Num(n as real)
  {
    ToNumberIntegerText(n);
  }

  const TrimNotAFunction := "trim is not a function"

  /** `(item.x || currentItem.x || fallback).trim()` */
  function Chosen(partial: Option<string>, current: Json, fallback: string): (r: Result<string, Error>)
    ensures partial.Some? && partial.value != "" ==> r == Success(Trim(partial.value))
    ensures !(partial.Some? && partial.value != "") && current.JStr? && current.s != "" ==> r == Success(Trim(current.s))
    ensures !(partial.Some? && partial.value != "") && !Truthy(current) ==> r == Success(Trim(fallback))
    ensures r.Failure? <==> !(partial.Some? && partial.value != "") && Truthy(current) && !current.JStr?
  {
    if partial.Some? && partial.value != "" then Success(Trim(partial.value))
    else if Truthy(current) then
      if current.JStr? then Success(Trim(current.s)) else Failure(PlainError(TrimNotAFunction))
    else Success(Trim(fallback))
  }

  /** Each of the five `.trim()` calls of the update meets a string. */
  predicate ChoicesReadable(d: ItemDraft, current: InventoryItem) {
    Chosen(d.name, current.name, "").Success? && Chosen(d.unit, current.unit, "piece").Success?
    && Chosen(d.measure, current.measure, "unit").Success? && Chosen(d.category, current.category, "").Success?
    && Chosen(d.location, current.location, "").Success?
  }

  /** The validation of updateInventoryItem against the fetched current item. */
  function PrepareUpdate(d: ItemDraft, current: InventoryItem): (r: Result<FormFields, Error>)
    ensures var q := UpdateQuantity(d.quantity, current.quantity);
            (q.NaN? || q.v < 0.0) <==> r == Failure(PlainError(QuantityInvalid))
    ensures var q := UpdateQuantity(d.quantity, current.quantity);
            r.Success? <==> (q.Num? && q.v >= 0.0 && ChoicesReadable(d, current)
                             && Chosen(d.name, current.name, "").value != ""
                             && Chosen(d.category, current.category, "").value != "")
    ensures var q := UpdateQuantity(d.quantity, current.quantity);
            q.Num? && q.v >= 0.0 && !ChoicesReadable(d, current) ==> r == Failure(PlainError(TrimNotAFunction))
    ensures var q := UpdateQuantity(d.quantity, current.quantity);
            q.Num? && q.v >= 0.0 && ChoicesReadable(d, current) && Chosen(d.name, current.name, "").value == "" ==>
              r == Failure(PlainError(NameRequired))
    ensures var q := UpdateQuantity(d.quantity, current.quantity);
            q.Num? && q.v >= 0.0 && ChoicesReadable(d, current) && Chosen(d.name, current.name, "").value != ""
            && Chosen(d.category, current.category, "").value == "" ==>
              r == Failure(PlainError(CategoryRequired))
    ensures r.Success? ==>
              var q := UpdateQuantity(d.quantity, current.quantity);
              var f := r.value;
              q.Num? && f.quantity >= 0 && f.quantity as real <= q.v < f.quantity as real + 1.0
              && Chosen(d.name, current.name, "") == Success(f.name)
              && Chosen(d.unit, current.unit, "piece") == Success(f.unit)
              && Chosen(d.measure, current.measure, "unit") == Success(f.measure)
              && Chosen(d.category, current.category, "") == Success(f.category)
              && Chosen(d.location, current.location, "") == Success(f.location)
              && f.name != "" && f.category != ""
  {
    var q := UpdateQuantity(d.quantity, current.quantity);
    if q.NaN? || q.v < 0.0 then Failure(PlainError(QuantityInvalid))
    else
      var name := Chosen(d.name, current.name, "");
      var unit := Chosen(d.unit, current.unit, "piece");
      var measure := Chosen(d.measure, current.measure, "unit");
      var category := Chosen(d.category, current.category, "");
      var location := Chosen(d.location, current.location, "");
      if name.Failure? then Failure(name.error)
      else if unit.Failure? then Failure(unit.error)
      else if measure.Failure? then Failure(measure.error)
      else if category.Failure? then Failure(category.error)
      else if location.Failure? then Failure(location.error)
      else if name.value == "" then Failure(PlainError(NameRequired))
      else if category.value == "" then Failure(PlainError(CategoryRequired))
      else Success(FormFields(name.value, unit.value, q.v.Floor, measure.value, category.value, location.value))
  }

  /**
   * updateInventoryItem(id, item): fetch the current item, validate the
   * merged fields, then PUT the full form. A failed fetch or validation
   * stops before the PUT.
   */
  function UpdateExchange(id: int, d: ItemDraft, token: Option<string>, getOutcome: FetchOutcome,
                          putOutcome: FetchOutcome, today: string): (x: Exchange<InventoryItem>)
    ensures var get := FetchItemExchange(id, token, getOutcome, today);
            get.result.Failure? ==> x == Exchange(get.sent, Failure(get.result.error))
    ensures var get := FetchItemExchange(id, token, getOutcome, today);
            get.result.Success? && PrepareUpdate(d, get.result.value).Failure? ==>
              x == Exchange(get.sent, Failure(PrepareUpdate(d, get.result.value).error))
    ensures var get := FetchItemExchange(id, token, getOutcome, today);
            get.result.Success? && PrepareUpdate(d, get.result.value).Success? ==>
              |x.sent| == 2 && x.sent[0] == get.sent[0]
              && x.sent[1].url == ApiClient.BaseUrl + ItemEndpoint(id) && x.sent[1].verb == "PUT"
              && x.sent[1].body == Some(FormText(Payload(PrepareUpdate(d, get.result.value).value)))
              && x.sent[1].headers == [FormContentType]
    ensures var get := FetchItemExchange(id, token, getOutcome, today);
            get.result.Success? && PrepareUpdate(d, get.result.value).Success? && Classify(putOutcome).Failure? ==>
              x.result == Failure(Classify(putOutcome).error)
    ensures var get := FetchItemExchange(id, token, getOutcome, today);
            get.result.Success? && PrepareUpdate(d, get.result.value).Success? && Classify(putOutcome).Success? ==>
              x.result == ItemFromResponse(Classify(putOutcome).value, today)
  {
    var get := FetchItemExchange(id, token, getOutcome, today);
    match get.result
    case Failure(e) => Exchange(get.sent, Failure(e))
    case Success(current) =>
      match PrepareUpdate(d, current)
      case Failure(e) => Exchange(get.sent, Failure(e))
      case Success(fields) =>
        var put := ApiClient.RequestExchange(ItemEndpoint(id), FormOptions("PUT", fields), token, putOutcome);
        match put.result
        case Failure(e) => Exchange(get.sent + put.sent, Failure(e))
        case Success(response) => Exchange(get.sent + put.sent, ItemFromResponse(response, today))
  }

  method UpdateInventoryItem(id: int, d: ItemDraft, token: Option<string>, getOutcome: FetchOutcome,
                             putOutcome: FetchOutcome, today: string) returns (x: Exchange<InventoryItem>)
    ensures x == UpdateExchange(id, d, token, getOutcome, putOutcome, today)
  {
    var get := ApiClient.ApiRequest(ItemEndpoint(id), NoOptions, token, getOutcome);
    if get.result.Failure? {
      return Exchange(get.sent, Failure(get.result.error));
    }
    var current := ItemFromResponse(get.result.value, today);
    if current.Failure? {
      return Exchange(get.sent, Failure(current.error));
    }
    var prepared := PrepareUpdate(d, current.value);
    if prepared.Failure? {
      return Exchange(get.sent, Failure(prepared.error));
    }
    var formData := BuildPayload(prepared.value);
    var options := RequestOptions(Some("PUT"), Some([FormContentType]), Some(FormText(formData)));
    var put := ApiClient.ApiRequest(ItemEndpoint(id), options, token, putOutcome);
    if put.result.Failure? {
      return Exchange(get.sent + put.sent, Failure(put.result.error));
    }
    x := Exchange(get.sent + put.sent, ItemFromResponse(put.result.value, today));
  }

  /** A rejected update never reaches the PUT: at most the GET of the current item went out. */
  lemma RejectedUpdateOnlyFetches(id: int, d: ItemDraft, token: Option<string>, getOutcome: FetchOutcome,
                                  putOutcome: FetchOutcome, today: string)
    requires var get := FetchItemExchange(id, token, getOutcome, today);
             get.result.Success? ==> PrepareUpdate(d, get.result.value).Failure?
    ensures var x := UpdateExchange(id, d, token, getOutcome, putOutcome, today);
            |x.sent| <= 1 && forall i :: 0 <= i < |x.sent| ==> x.sent[i].verb == "GET"
  {
  }

  /** deleteInventoryItem(id): a DELETE whose failures are rethrown unchanged. */
  function DeleteExchange(id: int, token: Option<string>, outcome: FetchOutcome): (x: Exchange<()>)
    ensures x.sent == ApiClient.RequestExchange(ItemEndpoint(id), RequestOptions(Some("DELETE"), None, None), token, outcome).sent
    ensures x.result.Success? <==> HasToken(token) && Classify(outcome).Success?
    ensures x.result.Failure? ==> x.result.error.ApiError?
    ensures x.result.Failure? ==>
              x.result.error == ApiClient.RequestExchange(ItemEndpoint(id), RequestOptions(Some("DELETE"), None, None), token, outcome).result.error
  {
    var ex := ApiClient.RequestExchange(ItemEndpoint(id), RequestOptions(Some("DELETE"), None, None), token, outcome);
    match ex.result
    case Failure(e) => Exchange(ex.sent, Failure(e))
    case Success(_) => Exchange(ex.sent, Success(()))
  }
}

=== FILE: inventory_filters.dfy ===
/**
 * The inventory filter bar (src/components/tables/InventoryFilters.tsx):
 * each change rewrites one query parameter of the current URL and, unless
 * the change is to `page` itself, sends the list back to its first page by
 * removing `page`.
 */
module InventoryFilterBar {
  import opened Wrappers
  import opened Pairs
  import opened UrlParams

  /** createQueryString(name, value) on the current parameters. */
  function FilterQuery(current: seq<Pair>, name: string, value: string): seq<Pair> {
    var updated := if value != "" then Put(current, name, value) else Removed(current, name);
    if name != "page" then Removed(updated, "page") else updated
  }

  /** createQueryString as the component runs it, on a fresh copy of the current parameters. */
  method CreateQueryString(current: seq<Pair>, name: string, value: string) returns (query: string)
    ensures query == Serialize(FilterQuery(current, name, value))
  {
    var params := new UrlSearchParams(current);
    if value != "" {
      params.Set(name, value);
    } else {
      params.Delete(name);
    }
    if name != "page" {
      params.Delete("page");
    }
    query := params.ToString();
  }

  /**
   * The named parameter takes the value, or goes when the value is empty;
   * `page` goes unless it is the one named; every other parameter is kept.
   */
  lemma FilterQueryLookup(current: seq<Pair>, name: string, value: string, k: string)
    ensures Lookup(FilterQuery(current, name, value), k) ==
              if k == name then (if value != "" then Some(value) else None)
              else if k == "page" then None
              else Lookup(current, k)
  {
    var updated := if value != "" then Put(current, name, value) else Removed(current, name);
    if value != "" {
      LookupPut(current, name, value, k);
    } else {
      LookupRemoved(current, name, k);
    }
    if name != "page" {
      LookupRemoved(updated, "page", k);
    }
  }

  /** Applying the same change twice leaves the parameters as applying it once. */
  lemma FilterQueryIdempotent(current: seq<Pair>, name: string, value: string)
    ensures FilterQuery(FilterQuery(current, name, value), name, value) == FilterQuery(current, name, value)
  {
    var once := FilterQuery(current, name, value);
    if name == "page" {
      if value != "" {
        PutPut(current, name, value);
      } else {
        RemovedRemoved(current, name);
      }
    } else if value != "" {
      RemovedPutOther(current, name, value, "page");
      PutPut(Removed(current, "page"), name, value);
      RemovedPutOther(once, name, value, "page");
      RemovedRemoved(current, "page");
      assert Removed(once, "page") == once by {
        RemovedRemoved(Put(current, name, value), "page");
      }
    } else {
      var r := Removed(current, name);
      RemovedCommute(r, "page", name);
      RemovedRemoved(current, name);
      RemovedRemoved(Removed(r, name), "page");
      RemovedRemoved(r, "page");
    }
  }

  /** handleSearchChange(value): `search` takes the value or goes, `page` goes, the rest stays. */
  function SearchChange(current: seq<Pair>, value: string): (q: seq<Pair>)
    ensures Lookup(q, "search") == (if value != "" then Some(value) else None)
    ensures Lookup(q, "page").None?
    ensures forall k :: k != "search" && k != "page" ==> Lookup(q, k) == Lookup(current, k)
  {
    forall k
      ensures Lookup(FilterQuery(current, "search", value), k) ==
                if k == "search" then (if value != "" then Some(value) else None)
                else if k == "page" then None
                else Lookup(current, k)
    {
      FilterQueryLookup(current, "search", value, k);
    }
    FilterQuery(current, "search", value)
  }

  /** handleStatusChange(value): choosing "All" clears the status filter, and `page` goes. */
  function StatusChange(current: seq<Pair>, value: string): (q: seq<Pair>)
    ensures Lookup(q, "status") == (if value != "" && value != "All" then Some(value) else None)
    ensures Lookup(q, "page").None?
    ensures forall k :: k != "status" && k != "page" ==> Lookup(q, k) == Lookup(current, k)
  {
    var v := if value == "All" then "" else value;
    forall k
      ensures Lookup(FilterQuery(current, "status", v), k) ==
                if k == "status" then (if v != "" then Some(v) else None)
                else if k == "page" then None
                else Lookup(current, k)
    {
      FilterQueryLookup(current, "status", v, k);
    }
    FilterQuery(current, "status", v)
  }

  /** Choosing "All" removes `status` and `page` and keeps the search. */
  lemma AllClearsStatus(current: seq<Pair>)
    ensures Lookup(StatusChange(current, "All"), "status").None?
    ensures Lookup(StatusChange(current, "All"), "page").None?
    ensures Lookup(StatusChange(current, "All"), "search") == Lookup(current, "search")
  {
    assert "search"[1] != "status"[1];
  }

  /** A new search is kept and always shows the first page. */
  lemma SearchResetsPage(current: seq<Pair>, value: string)
    requires value != ""
    ensures Lookup(SearchChange(current, value), "search") == Some(value)
    ensures Lookup(SearchChange(current, value), "page").None?
    ensures Lookup(SearchChange(current, value), "status") == Lookup(current, "status")
  {
    assert "search"[1] != "status"[1];
  }
}

=== FILE: inventory_history.dfy ===
/**
 * The inventory-history grid
 * (src/components/sections/inventory-explore/inventory-history/InventoryTable.tsx):
 * the effect that loads the rows once, picks the row array out of the
 * response and copies seven fields of each row.
 */
module InventoryHistory {
  import opened Wrappers
  import opened JsonValue
  import opened Http
  import ApiClient

  /** A grid row: the seven backend fields, copied as they are. */
  datatype InventoryRow = InventoryRow(id: Json, name: Json, createdAt: Json, unit: Json, quantity: Json, category: Json, location: Json)

  /** normalizeInventoryItem(item); reading a field of null or undefined throws. */
  function NormalizeInventoryItem(item: Json): (r: Result<InventoryRow, string>)
    ensures r.Failure? <==> IsNullish(item)
    ensures r.Success? ==>
              r.value.id == Get(item, "ID") && r.value.name == Get(item, "Name")
              && r.value.createdAt == Get(item, "CreatedAt") && r.value.unit == Get(item, "Unit")
              && r.value.quantity == Get(item, "Quantity") && r.value.category == Get(item, "Category")
              && r.value.location == Get(item, "Location")
  {
    match Read(item, "ID")
    case Failure(m) => Failure(m)
    case Success(id) =>
      Success(InventoryRow(id, Get(item, "Name"), Get(item, "CreatedAt"), Get(item, "Unit"),
                           Get(item, "Quantity"), Get(item, "Category"), Get(item, "Location")))
  }

  /** The value whose .map is called: the array itself, or `data || items || inventories || []` of an object. */
  function SelectedRows(response: Json): (s: Json)
    ensures response.JArr? ==> s == response
    ensures response.JObj? ==>
              s == (if Truthy(Get(response, "data")) then Get(response, "data")
                    else if Truthy(Get(response, "items")) then Get(response, "items")
                    else if Truthy(Get(response, "inventories")) then Get(response, "inventories")
                    else JArr([]))
    ensures !response.JArr? && !response.JObj? ==> s == JArr([])
  {
    if response.JArr? then response
    else if response.JObj? then
      Or(Or(Or(Get(response, "data"), Get(response, "items")), Get(response, "inventories")), JArr([]))
    else JArr([])
  }

  /**
   * The rows the effect stores once the fetch has been made: the normalised
   * selected array, or [] for a non-ok status, a body that is not JSON, a
   * selected value that is not an array, or a row that cannot be read.
   */
  function HistoryRows(outcome: FetchOutcome): (rows: seq<InventoryRow>)
    ensures var ok := outcome.Received? && IsOk(outcome.response.status) && outcome.response.json.Success?;
            ok && SelectedRows(outcome.response.json.value).JArr?
            && MapEach(SelectedRows(outcome.response.json.value).elems, NormalizeInventoryItem).Success? ==>
              var elems := SelectedRows(outcome.response.json.value).elems;
              |rows| == |elems| && forall i :: 0 <= i < |elems| ==> NormalizeInventoryItem(elems[i]) == Success(rows[i])
    ensures !(outcome.Received? && IsOk(outcome.response.status) && outcome.response.json.Success?) ==> rows == []
    ensures var ok := outcome.Received? && IsOk(outcome.response.status) && outcome.response.json.Success?;
            ok && (!SelectedRows(outcome.response.json.value).JArr?
                   || MapEach(SelectedRows(outcome.response.json.value).elems, NormalizeInventoryItem).Failure?) ==>
              rows == []
  {
    if !(outcome.Received? && IsOk(outcome.response.status)) then []
    else match outcome.response.json
      case Failure(_) => []
      case Success(response) =>
        var selected := SelectedRows(response);
        if !selected.JArr? then []
        else match MapEach(selected.elems, NormalizeInventoryItem)
          case Success(rows) => rows
          case Failure(_) => []
  }

  class HistoryTable {
    var inventories: seq<InventoryRow>

    constructor ()
      ensures inventories == []
    {
      inventories := [];
    }

    /**
     * fetchInventories(): without an environment token it returns before any
     * request and leaves the rows alone; otherwise the rows become
     * HistoryRows of the outcome. `fetched` says whether the request was made.
     */
    method FetchInventories(envToken: Option<string>, outcome: FetchOutcome) returns (fetched: bool)
      modifies this
      ensures fetched <==> HasToken(envToken)
      ensures !fetched ==> inventories == old(inventories)
      ensures fetched ==> inventories == HistoryRows(outcome)
    {
      if !HasToken(envToken) {
        return false;
      }
      fetched := true;
      if !(outcome.Received? && IsOk(outcome.response.status)) || outcome.response.json.Failure? {
        inventories := [];
        return;
      }
      var inventoryArray := JArr([]);
      var responseData := outcome.response.json.value;
      if responseData.JArr? {
        inventoryArray := responseData;
      } else if responseData.JObj? {
        inventoryArray := Or(Or(Or(Get(responseData, "data"), Get(responseData, "items")), Get(responseData, "inventories")), JArr([]));
      }
      if !inventoryArray.JArr? {
        inventories := [];
        return;
      }
      var processed := MapEach(inventoryArray.elems, NormalizeInventoryItem);
      inventories := if processed.Success? then processed.value else [];
    }
  }

  /** A bare array wins over any wrapping: its rows are used in order, one grid row per element. */
  lemma BareArrayKept(status: int, statusText: string, text: string, elems: seq<Json>)
    requires IsOk(status) && forall i :: 0 <= i < |elems| ==> !IsNullish(elems[i])
    ensures var rows := HistoryRows(Received(HttpResponse(status, statusText, text, Success(JArr(elems)))));
            |rows| == |elems| && forall i :: 0 <= i < |elems| ==> rows[i].id == Get(elems[i], "ID")
  {
    var rows := HistoryRows(Received(HttpResponse(status, statusText, text, Success(JArr(elems)))));
    assert MapEach(elems, NormalizeInventoryItem).Success?;
    forall i | 0 <= i < |elems| ensures rows[i].id == Get(elems[i], "ID") {
      assert NormalizeInventoryItem(elems[i]) == Success(rows[i]);
    }
  }
}

=== FILE: inventory_pagination.dfy ===
/**
 * The inventory pagination control
 * (src/components/tables/InventoryPagination.tsx): three page buttons
 * around the current page, ellipses, and the query a page change pushes.
 */
module InventoryPagination {
  import opened Wrappers
  import opened Js
  import opened Text
  import opened Pairs
  import opened UrlParams

  /**
   * `Array.from({length: Math.min(3, totalPages)}, (_, i) => i + Math.max(currentPage - 1, 1))`;
   * Array.from turns a negative length into 0.
   */
  function PagesAroundCurrent(currentPage: int, totalPages: int): (pages: seq<int>)
    ensures |pages| == Max(0, Min(3, totalPages))
    ensures forall i :: 0 <= i < |pages| ==> pages[i] == FirstButton(currentPage) + i
  {
    seq(Max(0, Min(3, totalPages)), i => i + FirstButton(currentPage))
  }

  /** The first page of the window: the previous page, but never below 1. */
  function FirstButton(currentPage: int): int {
    Max(currentPage - 1, 1)
  }

  /** Inside the range the window is the previous, the current and the next page. */
  lemma WindowAroundMiddle(currentPage: int, totalPages: int)
    requires 2 <= currentPage < totalPages
    ensures PagesAroundCurrent(currentPage, totalPages) == [currentPage - 1, currentPage, currentPage + 1]
  {
  }

  /** For any page in range of at least three pages, the current page has a button. */
  lemma CurrentHasButton(currentPage: int, totalPages: int)
    requires 1 <= currentPage <= totalPages && totalPages >= 3
    ensures currentPage in PagesAroundCurrent(currentPage, totalPages)
  {
    var pages := PagesAroundCurrent(currentPage, totalPages);
    if currentPage == 1 {
      assert pages[0] == currentPage;
    } else {
      assert pages[1] == currentPage;
    }
  }

  /** The window is not clamped: on the last page of three or more, the last button is one past the end. */
  lemma LastPageOvershoots(totalPages: int)
    requires totalPages >= 3
    ensures var pages := PagesAroundCurrent(totalPages, totalPages);
            pages[|pages| - 1] == totalPages + 1
  {
  }

  /** `currentPage > 3`: shown exactly when at least two pages come before the window. */
  function LeadingEllipsis(currentPage: int): (b: bool)
    ensures b <==> FirstButton(currentPage) - 1 >= 2
  {
    currentPage > 3
  }

  /**
   * `currentPage < totalPages - 2`: on page 1 shown exactly when a page comes
   * after the three-button window, elsewhere only when at least two do.
   */
  function TrailingEllipsis(currentPage: int, totalPages: int): (b: bool)
    ensures currentPage == 1 ==> (b <==> totalPages - (FirstButton(currentPage) + 2) >= 1)
    ensures currentPage >= 2 ==> (b <==> totalPages - (FirstButton(currentPage) + 2) >= 2)
  {
    currentPage < totalPages - 2
  }

  /**
   * The leading ellipsis shows exactly when at least two pages come before
   * the window. The trailing one shows exactly when at least two pages come
   * after it, or, on page 1, at least one.
   */
  lemma EllipsesMarkGaps(currentPage: int, totalPages: int)
    requires currentPage >= 1 && totalPages >= 3
    ensures var pages := PagesAroundCurrent(currentPage, totalPages);
            (LeadingEllipsis(currentPage) <==> pages[0] > 2)
            && (currentPage == 1 ==> (TrailingEllipsis(currentPage, totalPages) <==> pages[|pages| - 1] < totalPages))
            && (currentPage >= 2 ==> (TrailingEllipsis(currentPage, totalPages) <==> pages[|pages| - 1] < totalPages - 1))
  {
  }

  /** Page 3 of 5 hides both page 1 and page 5 and shows no ellipsis. */
  lemma HiddenPagesWithoutEllipsis()
    ensures PagesAroundCurrent(3, 5) == [2, 3, 4]
    ensures !LeadingEllipsis(3) && !TrailingEllipsis(3, 5)
  {
  }

  /** `disabled={currentPage === 1}`: from a page in range, enabled exactly when a previous page exists. */
  function PreviousDisabled(currentPage: int): (b: bool)
    ensures currentPage >= 1 ==> (!b <==> currentPage - 1 >= 1)
  {
    currentPage == 1
  }

  /** `disabled={currentPage === totalPages}`: from a page in range, enabled exactly when a next page exists. */
  function NextDisabled(currentPage: int, totalPages: int): (b: bool)
    ensures currentPage <= totalPages ==> (!b <==> currentPage + 1 <= totalPages)
  {
    currentPage == totalPages
  }

  /** From a page in range, an enabled Previous or Next button leads to a page in range. */
  lemma EnabledStepsStayInRange(currentPage: int, totalPages: int)
    requires 1 <= currentPage <= totalPages
    ensures !PreviousDisabled(currentPage) ==> 1 <= currentPage - 1 <= totalPages
    ensures !NextDisabled(currentPage, totalPages) ==> 1 <= currentPage + 1 <= totalPages
  {
  }

  /** createQueryString("page", page): the current parameters with `page` set. */
  function PageQuery(current: seq<Pair>, page: int): (q: seq<Pair>)
    ensures Lookup(q, "page") == Some(IntToString(page))
    ensures forall k :: k != "page" ==> Lookup(q, k) == Lookup(current, k)
  {
    forall k ensures Lookup(Put(current, "page", IntToString(page)), k) == if k == "page" then Some(IntToString(page)) else Lookup(current, k) {
      LookupPut(current, "page", IntToString(page), k);
    }
    Put(current, "page", IntToString(page))
  }

  /** handlePageChange(page): the URL pushed, built on a fresh copy of the current parameters. */
  method HandlePageChange(current: seq<Pair>, page: int) returns (url: string)
    ensures url == "?" + Serialize(PageQuery(current, page))
  {
    var params := new UrlSearchParams(current);
    params.Set("page", IntToString(page));
    url := "?" + params.ToString();
  }

  /** The page read back from the pushed query is the page asked for. */
  lemma PageQueryRoundTrip(current: seq<Pair>, page: int)
    ensures ParseInt(Lookup(PageQuery(current, page), "page").value) == page
  {
    ParseIntToString(page);
  }
}

=== FILE: inventory_server.dfy ===
/**
 * The server-side inventory reads (src/lib/inventory-server.ts): the same
 * query and normaliser as the client hook, sent through the generic
 * executor with the server token, and an error rewrite that singles out an
 * expired or invalid token.
 */
module InventoryServer {
  import opened Wrappers
  import opened JsonValue
  import opened Text
  import opened Pairs
  import opened Http
  import opened ListResponse
  import opened Inventory
  import InventoryClient
  import Api

  const ExpiredTokenMarker := "Invalid or expired token"
  const AuthFailedMessage := "Authentication failed: " + "JWT token is expired or invalid. Please check your token configuration."

  /** The catch of the server list call. */
  function ServerListError(message: string): (e: Error)
    ensures e.PlainError?
    ensures Contains(message, ExpiredTokenMarker) <==> e.message == AuthFailedMessage
    ensures !Contains(message, ExpiredTokenMarker) ==> e == InventoryClient.WrapListError(message)
  {
    if Contains(message, ExpiredTokenMarker) then PlainError(AuthFailedMessage)
    else
      PrefixedNotAuthFailed(message);
      InventoryClient.WrapListError(message)
  }

  /** A prefixed message never equals the authentication message: their first letters differ. */
  lemma PrefixedNotAuthFailed(message: string)
    ensures InventoryClient.ListErrorPrefix + message != AuthFailedMessage
  {
    var prefixed := InventoryClient.ListErrorPrefix + message;
    assert prefixed[0] == InventoryClient.ListErrorPrefix[0] == 'I';
    assert AuthFailedMessage[0] == 'A';
  }

  /** `serverToken || undefined` */
  function TokenArgument(serverToken: Option<string>): (t: Option<string>)
    ensures HasToken(t) <==> HasToken(serverToken)
    ensures HasToken(serverToken) ==> t == serverToken
    ensures !HasToken(serverToken) ==> t.None?
  {
    if HasToken(serverToken) then serverToken else None
  }

  /** fetchInventoryItemsServer(filters) with the server token and the outcome of its fetch. */
  function FetchListServerExchange(filters: InventoryFilters, serverToken: Option<string>, outcome: FetchOutcome,
                                   today: string): (x: Exchange<Page<Row>>)
    ensures |x.sent| == 1
    ensures x.sent[0].url == Api.BaseUrl + ListEndpoint(InventoryClient.ClientQueryPairs(Effective(filters)))
    ensures x.sent[0].verb == "GET"
    ensures Lookup(x.sent[0].headers, "Authorization") ==
              if HasToken(serverToken) then Some("Bearer " + serverToken.value) else None
    ensures Classify(outcome).Failure? ==> x.result == Failure(ServerListError(Classify(outcome).error.message))
    ensures Classify(outcome).Success? ==>
              var q := Effective(filters);
              match Normalized(Classify(outcome).value, "items", q.page, q.limit, KeepRow, j => MapRow(j, today))
              case Success(page) => x.result == Success(page)
              case Failure(m) => x.result == Failure(ServerListError(m))
  {
    var q := Effective(filters);
    var ex := Api.RequestExchange(ListEndpoint(InventoryClient.ClientQueryPairs(q)), GetOptions(NoOptions),
                                  TokenArgument(serverToken), None, outcome);
    match ex.result
    case Failure(e) => Exchange(ex.sent, Failure(ServerListError(e.message)))
    case Success(response) =>
      match Normalized(response, "items", q.page, q.limit, KeepRow, j => MapRow(j, today))
      case Success(page) => Exchange(ex.sent, Success(page))
      case Failure(m) => Exchange(ex.sent, Failure(ServerListError(m)))
  }

  method FetchInventoryItemsServer(filters: InventoryFilters, serverToken: Option<string>, outcome: FetchOutcome,
                                   today: string) returns (x: Exchange<Page<Row>>)
    ensures x == FetchListServerExchange(filters, serverToken, outcome, today)
  {
    var q := Effective(filters);
    var pairs := InventoryClient.BuildClientQuery(q);
    var ex := Api.RequestExchange(ListEndpoint(pairs), GetOptions(NoOptions), TokenArgument(serverToken), None, outcome);
    if ex.result.Failure? {
      return Exchange(ex.sent, Failure(ServerListError(ex.result.error.message)));
    }
    var page := Normalize(ex.result.value, "items", q.page, q.limit, KeepRow, j => MapRow(j, today));
    if page.Failure? {
      return Exchange(ex.sent, Failure(ServerListError(page.error)));
    }
    x := Exchange(ex.sent, Success(page.value));
  }

  /** A backend rejection whose message is exactly the expired-token text surfaces as the authentication message. */
  lemma ExpiredTokenRewritten(filters: InventoryFilters, serverToken: Option<string>, status: int, statusText: string,
                              text: string, today: string)
    requires !IsOk(status)
    ensures var body := JObj(map["message" := JStr(ExpiredTokenMarker)]);
            var outcome := Received(HttpResponse(status, statusText, text, Success(body)));
            FetchListServerExchange(filters, serverToken, outcome, today).result == Failure(PlainError(AuthFailedMessage))
  {
    var body := JObj(map["message" := JStr(ExpiredTokenMarker)]);
    assert Get(body, "message") == JStr(ExpiredTokenMarker);
    ContainsAt(ExpiredTokenMarker, ExpiredTokenMarker, 0);
  }

  /** fetchInventoryItemServer(id): every failure is rethrown unchanged. */
  function FetchItemServerExchange(id: int, serverToken: Option<string>, outcome: FetchOutcome, today: string)
    : (x: Exchange<InventoryItem>)
    ensures |x.sent| == 1 && x.sent[0].url == Api.BaseUrl + InventoryClient.ItemEndpoint(id) && x.sent[0].verb == "GET"
    ensures Classify(outcome).Failure? ==> x.result == Failure(Classify(outcome).error)
    ensures Classify(outcome).Success? ==> x.result == InventoryClient.ItemFromResponse(Classify(outcome).value, today)
  {
    var ex := Api.RequestExchange(InventoryClient.ItemEndpoint(id), GetOptions(NoOptions), TokenArgument(serverToken), None, outcome);
    match ex.result
    case Failure(e) => Exchange(ex.sent, Failure(e))
    case Success(response) => Exchange(ex.sent, InventoryClient.ItemFromResponse(response, today))
  }
}

=== FILE: inventory_table.dfy ===
/**
 * The sample inventory table (src/components/tables/InventoryTable.tsx):
 * its three pieces of component state, the handlers that update them, and
 * the rows and footer derived from them.
 */
module SampleTable {
  import opened Wrappers
  import opened Js
  import opened Inventory

  /** The table's own page size. */
  const PageSize := 5

  /** "Showing <first> to <last> of <total> items" */
  datatype Footer = Footer(first: int, last: int, total: int)

  class InventoryTable {
    var currentPage: int
    var searchTerm: string
    var statusFilter: string

    constructor ()
      ensures currentPage == 1 && searchTerm == "" && statusFilter == "All"
    {
      currentPage := 1;
      searchTerm := "";
      statusFilter := "All";
    }

    /** The search input's onChange: a new search shows the first page. */
    method ChangeSearch(value: string)
      modifies this
      ensures searchTerm == value && currentPage == 1 && statusFilter == old(statusFilter)
    {
      searchTerm := value;
      currentPage := 1;
    }

    /** The status select's onChange: a new status shows the first page. */
    method ChangeStatus(value: string)
      modifies this
      ensures statusFilter == value && currentPage == 1 && searchTerm == old(searchTerm)
    {
      statusFilter := value;
      currentPage := 1;
    }

    /** The pagination control's onPageChange. */
    method ChangePage(page: int)
      modifies this
      ensures currentPage == page && searchTerm == old(searchTerm) && statusFilter == old(statusFilter)
    {
      currentPage := page;
    }

    /** Math.ceil(filteredData.length / 5) */
    function TotalPages(data: seq<ItemSummary>): (n: int)
      reads this
      ensures var m := |FilterItems(data, searchTerm, statusFilter)|;
              (n - 1) * PageSize < m <= n * PageSize
    {
      CeilDiv(|FilterItems(data, searchTerm, statusFilter)|, PageSize)
    }

    /** filteredData.slice(startIndex, startIndex + 5) */
    function VisibleRows(data: seq<ItemSummary>): (rows: seq<ItemSummary>)
      reads this
      ensures |rows| <= PageSize
      ensures forall i :: 0 <= i < |rows| ==> Matches(rows[i], searchTerm, statusFilter)
      ensures var filtered := FilterItems(data, searchTerm, statusFilter);
              var start := (currentPage - 1) * PageSize;
              currentPage >= 1 ==> rows == filtered[Min(start, |filtered|)..Min(start + PageSize, |filtered|)]
    {
      var filtered := FilterItems(data, searchTerm, statusFilter);
      var start := (currentPage - 1) * PageSize;
      Slice(filtered, start, start + PageSize)
    }

    /** The footer, shown only when the filtered rows do not fit on one page. */
    function FooterLine(data: seq<ItemSummary>): (f: Option<Footer>)
      reads this
      ensures f.Some? <==> |FilterItems(data, searchTerm, statusFilter)| > PageSize
      ensures f.Some? ==> f.value.total == |FilterItems(data, searchTerm, statusFilter)|
      ensures f.Some? ==> f.value.first == (currentPage - 1) * PageSize + 1
                          && f.value.last == Min(currentPage * PageSize, f.value.total)
      ensures f.Some? && currentPage >= 1 && (currentPage - 1) * PageSize < f.value.total ==>
                1 <= f.value.first <= f.value.last <= f.value.total
                && f.value.last - f.value.first + 1 == |VisibleRows(data)|
    {
      var filtered := FilterItems(data, searchTerm, statusFilter);
      var start := (currentPage - 1) * PageSize;
      if |filtered| > PageSize then Some(Footer(start + 1, Min(start + PageSize, |filtered|), |filtered|))
      else None
    }
  }

  /** After a filter change the table shows the first five matching rows. */
  lemma FirstPageShown(t: InventoryTable, data: seq<ItemSummary>)
    requires t.currentPage == 1
    ensures var filtered := FilterItems(data, t.searchTerm, t.statusFilter);
            t.VisibleRows(data) == filtered[..Min(PageSize, |filtered|)]
  {
  }

  /** Every page from 1 to TotalPages shows at least one row. */
  lemma NoEmptyPage(t: InventoryTable, data: seq<ItemSummary>)
    requires 1 <= t.currentPage <= t.TotalPages(data)
    ensures 1 <= |t.VisibleRows(data)|
  {
  }
}

=== FILE: js_builtins.dfy ===
/**
 * The few JavaScript built-ins on numbers and arrays that the application's
 * pagination code leans on: Math.min, Math.max, Math.ceil of a quotient and
 * Array.prototype.slice with its clamping of negative and oversized bounds.
 */
module Js {

  function Min(a: int, b: int): int { if a <= b then a else b }

  function Max(a: int, b: int): int { if a >= b then a else b }

  /** Math.ceil(n / d) for a positive divisor. */
  function CeilDiv(n: int, d: int): (c: int)
    requires d > 0
    ensures (c - 1) * d < n <= c * d
  {
    (n + d - 1) / d
  }

  /** How Array.prototype.slice turns a relative bound into an index of s. */
  function SliceBound(len: nat, k: int): (b: nat)
    ensures b <= len
    ensures 0 <= k ==> b == Min(k, len)
  {
    if k < 0 then Max(len + k, 0) else Min(k, len)
  }

  /** Array.prototype.slice(start, end). */
  function Slice<T>(s: seq<T>, start: int, end: int): (r: seq<T>)
    ensures 0 <= start <= end ==> r == s[Min(start, |s|)..Min(end, |s|)]
    ensures |r| <= |s|
    ensures start < 0 || 0 <= end ==> |r| <= Max(end - start, 0)
    ensures forall i :: 0 <= i < |r| ==> r[i] in s
  {
    var lo := SliceBound(|s|, start);
    var hi := SliceBound(|s|, end);
    SliceBoundGap(|s|, start, end);
    if lo < hi then s[lo..hi] else []
  }

  /** A slice never spans more positions than its bounds are apart. */
  lemma SliceBoundGap(len: nat, a: int, b: int)
    ensures a < 0 || 0 <= b ==> SliceBound(len, b) - SliceBound(len, a) <= Max(b - a, 0)
  {
  }
}

=== FILE: json.dfy ===
/**
 * The untyped JSON values the backend returns, as JavaScript sees them once
 * parsed: a missing property reads as `undefined`, `||` picks its left operand
 * when that is truthy, and reading a property of null or undefined throws a
 * TypeError. Numbers are integers here (see the project's README).
 */
module JsonValue {
  import opened Wrappers
  import Text

  datatype Json =
    | JUndefined
    | JNull
    | JBool(b: bool)
    | JNum(n: int)
    | JStr(s: string)
    | JArr(elems: seq<Json>)
    | JObj(fields: map<string, Json>)

  /** JavaScript truthiness: the test behind `if (x)`, `!x` and `x || y`. */
  predicate Truthy(j: Json) {
    match j
    case JUndefined => false
    case JNull => false
    case JBool(b) => b
    case JNum(n) => n != 0
    case JStr(s) => s != ""
    case JArr(_) => true
    case JObj(_) => true
  }

  predicate IsNullish(j: Json) {
    j.JUndefined? || j.JNull?
  }

  /** j.key for a j that is not null or undefined (primitives and arrays have none of the keys read here). */
  function Get(j: Json, key: string): Json {
    if j.JObj? && key in j.fields then j.fields[key] else JUndefined
  }

  /** a || b */
  function Or(a: Json, b: Json): Json {
    if Truthy(a) then a else b
  }

  /** The TypeError message of reading `key` from null or undefined. */
  function NullReadMessage(j: Json, key: string): string {
    "Cannot read properties of " + (if j.JNull? then "null" else "undefined") + " (reading '" + key + "')"
  }

  /** j.key, which throws on null and undefined. */
  function Read(j: Json, key: string): (r: Result<Json, string>)
    ensures r.Failure? <==> IsNullish(j)
    ensures r.Success? ==> r.value == Get(j, key)
  {
    if IsNullish(j) then Failure(NullReadMessage(j, key)) else Success(Get(j, key))
  }

  /** A JavaScript number as the validation code sees it; infinities are not modelled. */
  datatype JsNumber = NaN | Num(v: real)

  /** A non-empty run of decimal digits. */
  predicate IsDigits(t: string) {
    t != [] && forall i :: 0 <= i < |t| ==> '0' <= t[i] <= '9'
  }

  /**
   * Number(s) for a string: white space around it is ignored, the blank
   * string is 0 and a decimal integer with an optional sign is its value.
   * Every other string reads as NaN.
   */
  function StringToNumber(s: string): (v: JsNumber)
    ensures v.Num? ==> v.v.Floor as real == v.v
    ensures Text.Trim(s) == "" ==> v == Num(0.0)
    ensures IsDigits(Text.Trim(s)) ==> v == Num(Text.ParseNat(Text.Trim(s)) as real)
    ensures v.Num? ==>
              var t := Text.Trim(s);
              t == "" || IsDigits(t) || ((t[0] == '-' || t[0] == '+') && IsDigits(t[1..]))
  {
    var t := Text.Trim(s);
    if t == "" then Num(0.0)
    else if IsDigits(t) then Num(Text.ParseNat(t) as real)
    else if (t[0] == '-' || t[0] == '+') && IsDigits(t[1..]) then
      var n: int := Text.ParseNat(t[1..]);
      Num((if t[0] == '-' then -n else n) as real)
    else NaN
  }

  /**
   * Number(j), the coercion behind `isNaN(x)`, `Math.floor(x)` and `x > n`.
   * An array reads as its joined text: [] is 0, one element is that element
   * (null and undefined join as ""), two or more hold a comma and are NaN.
   */
  function ToNumber(j: Json): (v: JsNumber)
    ensures v.Num? ==> v.v.Floor as real == v.v
    ensures j.JNum? ==> v == Num(j.n as real)
    ensures j.JStr? ==> v == StringToNumber(j.s)
    ensures j == JNull ==> v == Num(0.0)
    ensures j == JUndefined ==> v == NaN
    ensures j.JBool? ==> v == Num(if j.b then 1.0 else 0.0)
    ensures j.JObj? ==> v == NaN
    ensures j == JArr([]) ==> v == Num(0.0)
    ensures j.JArr? && |j.elems| == 1 && IsNullish(j.elems[0]) ==> v == Num(0.0)
    ensures j.JArr? && |j.elems| == 1 && !IsNullish(j.elems[0]) && !j.elems[0].JBool? ==> v == ToNumber(j.elems[0])
    ensures j.JArr? && (|j.elems| >= 2 || (|j.elems| == 1 && j.elems[0].JBool?)) ==> v == NaN
  {
    match j
    case JUndefined => NaN
    case JNull => Num(0.0)
    case JBool(b) => Num(if b then 1.0 else 0.0)
    case JNum(n) => Num(n as real)
    case JStr(s) => StringToNumber(s)
    case JArr(elems) =>
      if |elems| != 1 then (if elems == [] then Num(0.0) else NaN)
      else if IsNullish(elems[0]) then Num(0.0)
      else if elems[0].JBool? then NaN
      else ToNumber(elems[0])
    case JObj(_) => NaN
  }

  /** The decimal text of an integer reads back as that integer. */
  lemma StringToNumberIntToString(i: int)
    ensures StringToNumber(Text.IntToString(i)) == Num(i as real)
  {
    var t := Text.IntToString(i);
    var m: nat := if i < 0 then -i else i;
    var digits := Text.NatToString(m);
    assert IsDigits(digits);
    Text.ParseNatToString(m);
    var last := digits[|digits| - 1];
    assert !Text.IsSpace(last) by { assert '0' <= last <= '9'; }
    if i >= 0 {
      assert t == digits;
      assert !Text.IsSpace(t[0]) by { assert '0' <= t[0] <= '9'; }
      Text.TrimUnpadded(t);
    } else {
      assert t == "-" + digits;
      assert t[|t| - 1] == last && t[1..] == digits;
      Text.TrimUnpadded(t);
      assert !IsDigits(t) by { assert t[0] == '-'; }
    }
  }

  /** A number sent as its decimal text, alone or in a one-element array, coerces back to that number. */
  lemma ToNumberIntegerText(i: int)
    ensures ToNumber(JStr(Text.IntToString(i))) == ToNumber(JNum(i))
    ensures ToNumber(JArr([JStr(Text.IntToString(i))])) == ToNumber(JNum(i))
  {
    StringToNumberIntToString(i);
  }

  /**
   * xs.map(f) for a callback that may throw: the first element whose
   * callback throws decides the failure.
   */
  function MapEach<T, E>(xs: seq<Json>, f: Json -> Result<T, E>): (r: Result<seq<T>, E>)
    ensures r.Success? <==> forall i :: 0 <= i < |xs| ==> f(xs[i]).Success?
    ensures r.Success? ==> |r.value| == |xs| && forall i :: 0 <= i < |xs| ==> f(xs[i]) == Success(r.value[i])
    ensures r.Failure? ==> exists i :: 0 <= i < |xs| && f(xs[i]) == Failure(r.error)
                                        && forall k :: 0 <= k < i ==> f(xs[k]).Success?
    decreases |xs|
  {
    if xs == [] then Success([])
    else match f(xs[0])
      case Failure(e) => Failure(e)
      case Success(y) =>
        match MapEach(xs[1..], f)
        case Failure(e) =>
          assert forall i :: 1 <= i < |xs| ==> xs[i] == xs[1..][i - 1];
          Failure(e)
        case Success(ys) =>
          assert forall i :: 1 <= i < |xs| ==> xs[i] == xs[1..][i - 1];
          Success([y] + ys)
  }
}

=== FILE: list_response.dfy ===
/**
 * The list-response normaliser shared, in copies, by the inventory and
 * warehouse fetch functions. It looks at an untyped envelope in a fixed
 * order (a `<list>` array, a bare array, a `data` array, `data.<list>`) and
 * produces the rows and a pagination record. Numeric fields follow JavaScript
 * `||`, so 0 counts as absent.
 */
module ListResponse {
  import opened Wrappers
  import opened JsonValue
  import opened Js
  import Text

  datatype Pagination = Pagination(
    currentPage: int,
    totalPages: int,
    totalItems: int,
    itemsPerPage: int,
    startIndex: int,
    endIndex: int)

  /** The record every normaliser starts from. */
  function DefaultPagination(page: int, limit: int): Pagination {
    Pagination(page, 1, 0, limit, 1, 0)
  }

  /**
   * `field || fallback` on a numeric pagination field, as the index
   * arithmetic then coerces it: 0, "" and absent fall back, a number or a
   * numeric string counts as its value.
   */
  function NumberOr(j: Json, fallback: int): (n: int)
    ensures j.JNum? && j.n != 0 ==> n == j.n
    ensures Truthy(j) && ToNumber(j).Num? ==> n as real == ToNumber(j).v
    ensures !Truthy(j) ==> n == fallback
  {
    if Truthy(j) && ToNumber(j).Num? then ToNumber(j).v.Floor else fallback
  }

  /** A page number the server sends as text counts as that number. */
  lemma NumberOrIntegerText(i: int, fallback: int)
    ensures NumberOr(JStr(Text.IntToString(i)), fallback) == i
  {
    ToNumberIntegerText(i);
  }

  /** The record built from server-side pagination metadata, `count` being the length of the returned list. */
  function ServerPagination(meta: Json, page: int, limit: int, count: nat): (p: Pagination)
    ensures p.currentPage == NumberOr(Get(meta, "currentPage"), page)
    ensures p.itemsPerPage == NumberOr(Get(meta, "itemsPerPage"), limit)
    ensures p.totalPages == NumberOr(Get(meta, "totalPages"), 1)
    ensures p.totalItems == NumberOr(Get(meta, "totalItems"), count)
    ensures p.startIndex == (p.currentPage - 1) * p.itemsPerPage + 1
    ensures p.endIndex == Min(p.currentPage * p.itemsPerPage, p.totalItems)
  {
    WithRange(NumberOr(Get(meta, "currentPage"), page), NumberOr(Get(meta, "totalPages"), 1),
              NumberOr(Get(meta, "totalItems"), count), NumberOr(Get(meta, "itemsPerPage"), limit))
  }

  /** The record for the given page, page count, item count and page size, with the 1-based range of the page. */
  function WithRange(currentPage: int, totalPages: int, totalItems: int, itemsPerPage: int): (p: Pagination)
    ensures p.currentPage == currentPage && p.totalPages == totalPages
    ensures p.totalItems == totalItems && p.itemsPerPage == itemsPerPage
    ensures p.startIndex == (currentPage - 1) * itemsPerPage + 1
    ensures p.endIndex == Min(currentPage * itemsPerPage, totalItems)
  {
    Pagination(currentPage, totalPages, totalItems, itemsPerPage,
               (currentPage - 1) * itemsPerPage + 1, Min(currentPage * itemsPerPage, totalItems))
  }

  /**
   * For a page that holds at least one item, the reported range is a
   * non-empty run of at most itemsPerPage positions ending within totalItems.
   */
  lemma ServerRangeWithinPage(p: Pagination)
    requires p.startIndex == (p.currentPage - 1) * p.itemsPerPage + 1
    requires p.endIndex == Min(p.currentPage * p.itemsPerPage, p.totalItems)
    requires p.currentPage >= 1 && p.itemsPerPage >= 1
    requires (p.currentPage - 1) * p.itemsPerPage < p.totalItems
    ensures 1 <= p.startIndex <= p.endIndex <= p.totalItems
    ensures p.endIndex - p.startIndex + 1 <= p.itemsPerPage
  {
    assert p.currentPage * p.itemsPerPage == (p.currentPage - 1) * p.itemsPerPage + p.itemsPerPage;
    assert (p.currentPage - 1) * p.itemsPerPage >= 0;
  }

  /** A page past the last one reports an empty, inverted range: startIndex > endIndex. */
  lemma ServerRangePastEnd(p: Pagination)
    requires p.startIndex == (p.currentPage - 1) * p.itemsPerPage + 1
    requires p.endIndex == Min(p.currentPage * p.itemsPerPage, p.totalItems)
    requires p.currentPage >= 1 && p.itemsPerPage >= 1
    requires (p.currentPage - 1) * p.itemsPerPage >= p.totalItems
    ensures p.startIndex > p.endIndex
  {
  }

  /** Which of the recognised envelope shapes a response has. */
  datatype Shape =
    | KeyedArray(elems: seq<Json>, meta: Json)   // response.<list> is an array; meta is response.pagination
    | BareArray(elems: seq<Json>)                // the response itself is an array
    | DataArray(elems: seq<Json>)                // response.data is an array
    | DataKeyed(list: Json, meta: Json)          // response.data.<list> is truthy; meta is response.data.pagination
    | Unrecognised

  /** `response && typeof response === 'object'` */
  predicate IsObjectLike(j: Json) {
    j.JObj? || j.JArr?
  }

  /** The checks of the normaliser, in their order. */
  function ShapeOf(response: Json, listKey: string): (s: Shape)
    ensures s.KeyedArray? <==> response.JObj? && Get(response, listKey).JArr?
    ensures s.BareArray? <==> response.JArr?
    ensures s.DataArray? <==> response.JObj? && !Get(response, listKey).JArr? && Get(response, "data").JArr?
    ensures s.DataKeyed? <==> response.JObj? && !Get(response, listKey).JArr? && Truthy(Get(response, "data"))
                              && !Get(response, "data").JArr? && Truthy(Get(Get(response, "data"), listKey))
  {
    if !IsObjectLike(response) then Unrecognised
    else
      var list := Get(response, listKey);
      if Truthy(list) && list.JArr? then KeyedArray(list.elems, Get(response, "pagination"))
      else if response.JArr? then BareArray(response.elems)
      else
        var data := Get(response, "data");
        if !Truthy(data) then Unrecognised
        else if data.JArr? then DataArray(data.elems)
        else if Truthy(Get(data, listKey)) then DataKeyed(Get(data, listKey), Get(data, "pagination"))
        else Unrecognised
  }

  /** A `<list>` array wins over every other shape, `data` included. */
  lemma KeyedArrayFirst(response: Json, listKey: string)
    requires response.JObj? && Get(response, listKey).JArr?
    ensures ShapeOf(response, listKey) == KeyedArray(Get(response, listKey).elems, Get(response, "pagination"))
  {
  }

  /** The shapes that carry server pagination metadata, with metadata present. */
  predicate HasMeta(s: Shape) {
    (s.KeyedArray? || s.DataKeyed?) && Truthy(s.meta)
  }

  datatype Page<T> = Page(items: seq<T>, pagination: Pagination)

  function WithItems<T>(mapped: Result<seq<T>, string>, pagination: Pagination): Result<Page<T>, string> {
    match mapped
    case Success(items) => Success(Page(items, pagination))
    case Failure(e) => Failure(e)
  }

  /** The pagination record of a list of `count` rows returned without metadata. */
  function Counted(page: int, limit: int, count: nat): Pagination {
    DefaultPagination(page, limit).(totalItems := count, endIndex := count)
  }

  /** The TypeError of calling .map on a truthy value that is not an array. */
  function NotAnArrayMessage(listKey: string): string {
    "response.data." + listKey + ".map is not a function"
  }

  /**
   * The normaliser: `keep` converts the rows of the `<list>` and bare-array
   * shapes, `convert` those of the two `data` shapes; the first row that
   * throws makes the whole call throw.
   */
  function Normalized<T>(response: Json, listKey: string, page: int, limit: int,
                         keep: Json -> Result<T, string>, convert: Json -> Result<T, string>): (r: Result<Page<T>, string>)
    ensures ShapeOf(response, listKey).Unrecognised? ==> r == Success(Page([], DefaultPagination(page, limit)))
    ensures var s := ShapeOf(response, listKey);
            (s.KeyedArray? || s.BareArray?) ==>
              (r.Success? <==> forall i :: 0 <= i < |s.elems| ==> keep(s.elems[i]).Success?)
              && (r.Success? ==> |r.value.items| == |s.elems| && forall i :: 0 <= i < |s.elems| ==> keep(s.elems[i]) == Success(r.value.items[i]))
    ensures var s := ShapeOf(response, listKey);
            s.DataArray? ==>
              (r.Success? <==> forall i :: 0 <= i < |s.elems| ==> convert(s.elems[i]).Success?)
              && (r.Success? ==> |r.value.items| == |s.elems| && forall i :: 0 <= i < |s.elems| ==> convert(s.elems[i]) == Success(r.value.items[i]))
    ensures var s := ShapeOf(response, listKey);
            s.DataKeyed? ==>
              (r.Success? <==> s.list.JArr? && forall i :: 0 <= i < |s.list.elems| ==> convert(s.list.elems[i]).Success?)
              && (r.Success? ==> |r.value.items| == |s.list.elems| && forall i :: 0 <= i < |s.list.elems| ==> convert(s.list.elems[i]) == Success(r.value.items[i]))
    ensures var s := ShapeOf(response, listKey);
            r.Success? && HasMeta(s) ==> r.value.pagination == ServerPagination(s.meta, page, limit, |r.value.items|)
    ensures var s := ShapeOf(response, listKey);
            r.Success? && !HasMeta(s) ==>
              var p := r.value.pagination;
              p.currentPage == page && p.totalPages == 1 && p.itemsPerPage == limit && p.startIndex == 1
              && p.endIndex == p.totalItems
              && p.totalItems == (if s.DataKeyed? then 0 else |r.value.items|)
  {
    match ShapeOf(response, listKey)
    case KeyedArray(elems, meta) =>
      WithItems(MapEach(elems, keep),
                if Truthy(meta) then ServerPagination(meta, page, limit, |elems|) else Counted(page, limit, |elems|))
    case BareArray(elems) =>
      WithItems(MapEach(elems, keep), Counted(page, limit, |elems|))
    case DataArray(elems) =>
      WithItems(MapEach(elems, convert), Counted(page, limit, |elems|))
    case DataKeyed(list, meta) =>
      if !list.JArr? then Failure(NotAnArrayMessage(listKey))
      else WithItems(MapEach(list.elems, convert),
                     if Truthy(meta) then ServerPagination(meta, page, limit, |list.elems|) else DefaultPagination(page, limit))
    case Unrecognised =>
      Success(Page([], DefaultPagination(page, limit)))
  }

  /**
   * The normaliser as the fetch functions run it: `items` and `pagination`
   * start at their defaults and are reassigned, or updated field by field,
   * in the branch the envelope selects.
   */
  method Normalize<T>(response: Json, listKey: string, page: int, limit: int,
                      keep: Json -> Result<T, string>, convert: Json -> Result<T, string>)
    returns (r: Result<Page<T>, string>)
    ensures r == Normalized(response, listKey, page, limit, keep, convert)
  {
    var items: seq<T> := [];
    var pagination := DefaultPagination(page, limit);
    var shape := ShapeOf(response, listKey);
    if shape.KeyedArray? || shape.BareArray? {
      var mapped := MapEach(shape.elems, keep);
      if mapped.Failure? {
        return Failure(mapped.error);
      }
      items := mapped.value;
      if shape.KeyedArray? && Truthy(shape.meta) {
        pagination := ServerPagination(shape.meta, page, limit, |shape.elems|);
      } else {
        pagination := pagination.(totalItems := |shape.elems|);
        pagination := pagination.(endIndex := |shape.elems|);
      }
    } else if shape.DataArray? {
      var mapped := MapEach(shape.elems, convert);
      if mapped.Failure? {
        return Failure(mapped.error);
      }
      items := mapped.value;
      pagination := pagination.(totalItems := |shape.elems|);
      pagination := pagination.(endIndex := |shape.elems|);
    } else if shape.DataKeyed? {
      if !shape.list.JArr? {
        return Failure(NotAnArrayMessage(listKey));
      }
      var mapped := MapEach(shape.list.elems, convert);
      if mapped.Failure? {
        return Failure(mapped.error);
      }
      items := mapped.value;
      if Truthy(shape.meta) {
        pagination := ServerPagination(shape.meta, page, limit, |shape.list.elems|);
      }
    }
    r := Success(Page(items, pagination));
  }
}

=== FILE: pairs.dfy ===
/**
 * Ordered lists of (name, value) pairs: the entry list of a URLSearchParams
 * object (WHATWG URL Standard, the URLSearchParams class) and the own
 * properties of a plain headers object, in insertion order.
 * `Put` is URLSearchParams.set, which for a list with distinct names is also
 * what assigning a property of an object does; `Removed` is
 * URLSearchParams.delete.
 */
module Pairs {
  import opened Wrappers

  type Pair = (string, string)

  /** The value of the first pair named k (URLSearchParams.get, object property read). */
  function Lookup(q: seq<Pair>, k: string): Option<string> {
    if q == [] then None else if q[0].0 == k then Some(q[0].1) else Lookup(q[1..], k)
  }

  function Names(q: seq<Pair>): seq<string> {
    if q == [] then [] else [q[0].0] + Names(q[1..])
  }

  /** URLSearchParams.delete(k): every pair named k goes, the others keep their order. */
  function Removed(q: seq<Pair>, k: string): seq<Pair> {
    if q == [] then []
    else if q[0].0 == k then Removed(q[1..], k)
    else [q[0]] + Removed(q[1..], k)
  }

  /**
   * URLSearchParams.set(k, v): the first pair named k takes the value v and
   * the later ones go; with no pair named k, (k, v) is appended.
   */
  function Put(q: seq<Pair>, k: string, v: string): seq<Pair> {
    if q == [] then [(k, v)]
    else if q[0].0 == k then [(k, v)] + Removed(q[1..], k)
    else [q[0]] + Put(q[1..], k, v)
  }

  /** Object spread `{...base, ...over}`: each property of over is assigned in turn. */
  function Merge(base: seq<Pair>, over: seq<Pair>): seq<Pair>
    decreases |over|
  {
    if over == [] then base else Merge(Put(base, over[0].0, over[0].1), over[1..])
  }

  /** URLSearchParams.toString() without percent-encoding: name=value joined by '&'. */
  function Serialize(q: seq<Pair>): string {
    if q == [] then ""
    else if |q| == 1 then q[0].0 + "=" + q[0].1
    else q[0].0 + "=" + q[0].1 + "&" + Serialize(q[1..])
  }

  lemma SerializeEmpty(q: seq<Pair>)
    ensures Serialize(q) == "" <==> q == []
  {
    if q != [] {
      assert |q[0].0 + "=" + q[0].1| > 0;
    }
  }

  lemma {:induction false} LookupRemoved(q: seq<Pair>, k: string, k': string)
    ensures Lookup(Removed(q, k), k') == if k' == k then None else Lookup(q, k')
  {
    if q != [] {
      LookupRemoved(q[1..], k, k');
    }
  }

  lemma {:induction false} LookupPut(q: seq<Pair>, k: string, v: string, k': string)
    ensures Lookup(Put(q, k, v), k') == if k' == k then Some(v) else Lookup(q, k')
  {
    if q != [] {
      if q[0].0 == k {
        LookupRemoved(q[1..], k, k');
      } else {
        LookupPut(q[1..], k, v, k');
      }
    }
  }

  lemma {:induction false} RemovedRemoved(q: seq<Pair>, k: string)
    ensures Removed(Removed(q, k), k) == Removed(q, k)
  {
    if q != [] {
      RemovedRemoved(q[1..], k);
    }
  }

  lemma {:induction false} RemovedCommute(q: seq<Pair>, k: string, k': string)
    ensures Removed(Removed(q, k), k') == Removed(Removed(q, k'), k)
  {
    if q != [] {
      RemovedCommute(q[1..], k, k');
    }
  }

  /** set(k, v) leaves every other pair where it was. */
  lemma {:induction false} RemovedPut(q: seq<Pair>, k: string, v: string)
    ensures Removed(Put(q, k, v), k) == Removed(q, k)
  {
    if q != [] {
      if q[0].0 == k {
        RemovedRemoved(q[1..], k);
      } else {
        RemovedPut(q[1..], k, v);
      }
    }
  }

  lemma {:induction false} RemovedAbsent(q: seq<Pair>, k: string)
    requires Lookup(q, k).None?
    ensures Removed(q, k) == q
  {
    if q != [] {
      RemovedAbsent(q[1..], k);
    }
  }

  lemma {:induction false} PutRemoved(q: seq<Pair>, k: string, v: string)
    ensures Put(Removed(q, k), k, v) == Removed(q, k) + [(k, v)]
  {
    if q != [] {
      PutRemoved(q[1..], k, v);
    }
  }

  /** Setting a name to the value it already has changes nothing. */
  lemma {:induction false} PutPut(q: seq<Pair>, k: string, v: string)
    ensures Put(Put(q, k, v), k, v) == Put(q, k, v)
  {
    if q != [] {
      if q[0].0 == k {
        RemovedRemoved(q[1..], k);
      } else {
        PutPut(q[1..], k, v);
      }
    }
  }

  lemma {:induction false} RemovedPutOther(q: seq<Pair>, k: string, v: string, k': string)
    requires k' != k
    ensures Removed(Put(q, k, v), k') == Put(Removed(q, k'), k, v)
  {
    if q != [] {
      if q[0].0 == k {
        RemovedCommute(q[1..], k, k');
      } else {
        RemovedPutOther(q[1..], k, v, k');
      }
    }
  }

  lemma {:induction false} NamesPutAbsent(q: seq<Pair>, k: string, v: string)
    requires Lookup(q, k).None?
    ensures Put(q, k, v) == q + [(k, v)]
  {
    if q != [] {
      NamesPutAbsent(q[1..], k, v);
    }
  }

  /** No name occurs twice, as in the properties of a plain object. */
  predicate DistinctNames(q: seq<Pair>) {
    forall i, j :: 0 <= i < j < |q| ==> q[i].0 != q[j].0
  }

  lemma {:induction false} LookupAbsent(q: seq<Pair>, k: string)
    requires forall i :: 0 <= i < |q| ==> q[i].0 != k
    ensures Lookup(q, k).None?
  {
    if q != [] {
      LookupAbsent(q[1..], k);
    }
  }

  /** In `{...base, ...over}` a property of over wins over the same property of base. */
  lemma {:induction false} LookupMerge(base: seq<Pair>, over: seq<Pair>, k: string)
    requires DistinctNames(over)
    ensures Lookup(Merge(base, over), k) == if Lookup(over, k).Some? then Lookup(over, k) else Lookup(base, k)
    decreases |over|
  {
    if over != [] {
      var b' := Put(base, over[0].0, over[0].1);
      assert DistinctNames(over[1..]) by {
        forall i, j | 0 <= i < j < |over[1..]|
          ensures over[1..][i].0 != over[1..][j].0
        {
          assert over[1..][i] == over[i + 1] && over[1..][j] == over[j + 1];
        }
      }
      LookupMerge(b', over[1..], k);
      LookupPut(base, over[0].0, over[0].1, k);
      if k == over[0].0 {
        forall i | 0 <= i < |over[1..]|
          ensures over[1..][i].0 != k
        {
          assert over[1..][i] == over[i + 1];
        }
        LookupAbsent(over[1..], k);
      }
    }
  }

  lemma {:induction false} LookupConcat(a: seq<Pair>, b: seq<Pair>, k: string)
    ensures Lookup(a + b, k) == if Lookup(a, k).Some? then Lookup(a, k) else Lookup(b, k)
  {
    if a != [] {
      assert (a + b)[1..] == a[1..] + b;
      LookupConcat(a[1..], b, k);
    } else {
      assert a + b == b;
    }
  }

  /** A lookup in four concatenated blocks takes the first block that has the name. */
  lemma LookupConcat4(a: seq<Pair>, b: seq<Pair>, c: seq<Pair>, d: seq<Pair>, k: string)
    ensures Lookup(a + b + c + d, k) ==
              if Lookup(a, k).Some? then Lookup(a, k) else if Lookup(b, k).Some? then Lookup(b, k)
              else if Lookup(c, k).Some? then Lookup(c, k) else Lookup(d, k)
  {
    LookupConcat(a + b + c, d, k);
    LookupConcat(a + b, c, k);
    LookupConcat(a, b, k);
  }

  /** A block of at most one pair, named k when present. */
  predicate OptionalPair(q: seq<Pair>, k: string) {
    |q| <= 1 && (q != [] ==> q[0].0 == k)
  }

  /** Four optional pairs under four distinct names: each name reads from its own block. */
  lemma LookupOptionalPairs(a: seq<Pair>, b: seq<Pair>, c: seq<Pair>, d: seq<Pair>,
                            ka: string, kb: string, kc: string, kd: string)
    requires OptionalPair(a, ka) && OptionalPair(b, kb) && OptionalPair(c, kc) && OptionalPair(d, kd)
    requires ka != kb && ka != kc && ka != kd && kb != kc && kb != kd && kc != kd
    ensures Lookup(a + b + c + d, ka) == Lookup(a, ka) && Lookup(a + b + c + d, kb) == Lookup(b, kb)
    ensures Lookup(a + b + c + d, kc) == Lookup(c, kc) && Lookup(a + b + c + d, kd) == Lookup(d, kd)
  {
    OtherNameAbsent(a, ka, kb);
    OtherNameAbsent(a, ka, kc);
    OtherNameAbsent(a, ka, kd);
    OtherNameAbsent(b, kb, kc);
    OtherNameAbsent(b, kb, kd);
    OtherNameAbsent(c, kc, kd);
    LookupConcat4(a, b, c, d, ka);
    LookupConcat4(a, b, c, d, kb);
    LookupConcat4(a, b, c, d, kc);
    LookupConcat4(a, b, c, d, kd);
  }

  lemma OtherNameAbsent(q: seq<Pair>, k: string, k': string)
    requires OptionalPair(q, k) && k != k'
    ensures Lookup(q, k').None?
  {
    if q != [] {
      assert q[1..] == [];
    }
  }

  /** The names of four concatenated blocks, block by block. */
  lemma NamesConcat4(a: seq<Pair>, b: seq<Pair>, c: seq<Pair>, d: seq<Pair>)
    ensures Names(a + b + c + d) == Names(a) + Names(b) + Names(c) + Names(d)
  {
    NamesConcat(a + b + c, d);
    NamesConcat(a + b, c);
    NamesConcat(a, b);
  }

  lemma {:induction false} NamesConcat(a: seq<Pair>, b: seq<Pair>)
    ensures Names(a + b) == Names(a) + Names(b)
  {
    if a != [] {
      assert (a + b)[1..] == a[1..] + b;
      NamesConcat(a[1..], b);
    } else {
      assert a + b == b;
    }
  }
}

=== FILE: text.dfy ===
/**
 * String operations of JavaScript that the application relies on, restricted
 * to what the model needs: startsWith, includes, ASCII toLowerCase, trim,
 * split(c)[0] and the decimal rendering of integers (Number.prototype.toString).
 * A reading function for decimal numerals is the inverse used to state that a
 * rendered number can be read back.
 */
module Text {

  /** s.startsWith(p) */
  predicate StartsWith(s: string, p: string) {
    |p| <= |s| && s[..|p|] == p
  }

  /** s.includes(sub) */
  predicate Contains(s: string, sub: string)
    decreases |s|
  {
    StartsWith(s, sub) || (|s| > 0 && Contains(s[1..], sub))
  }

  lemma {:induction false} ContainsEmpty(s: string)
    ensures Contains(s, "")
  {
    assert StartsWith(s, "");
  }

  /** includes() is occurrence of sub at some offset of s. */
  lemma {:induction false} ContainsAt(s: string, sub: string, i: nat)
    requires i + |sub| <= |s| && s[i..i + |sub|] == sub
    ensures Contains(s, sub)
    decreases i
  {
    if i == 0 {
      assert s[..|sub|] == sub;
    } else {
      assert s[1..][i - 1..i - 1 + |sub|] == s[i..i + |sub|];
      ContainsAt(s[1..], sub, i - 1);
    }
  }

  function LowerChar(c: char): char {
    if 'A' <= c <= 'Z' then (c as int - 'A' as int + 'a' as int) as char else c
  }

  /** toLowerCase(), on the ASCII letters only. */
  function ToLower(s: string): (r: string)
    ensures |r| == |s|
    ensures forall i :: 0 <= i < |s| ==> r[i] == LowerChar(s[i])
  {
    seq(|s|, i requires 0 <= i < |s| => LowerChar(s[i]))
  }

  /** The white space that String.prototype.trim removes (Unicode space separators beyond U+00A0 are not listed). */
  predicate IsSpace(c: char) {
    c == ' ' || c == '\t' || c == '\n' || c == '\r' || c == '\U{000B}' || c == '\U{000C}'
    || c == '\U{00A0}' || c == '\U{FEFF}' || c == '\U{2028}' || c == '\U{2029}'
  }

  function TrimStart(s: string): (r: string)
    ensures |r| <= |s| && r == s[|s| - |r|..]
    ensures r != [] ==> !IsSpace(r[0])
    ensures forall i :: 0 <= i < |s| - |r| ==> IsSpace(s[i])
    decreases |s|
  {
    if |s| > 0 && IsSpace(s[0]) then TrimStart(s[1..]) else s
  }

  function TrimEnd(s: string): (r: string)
    ensures |r| <= |s| && r == s[..|r|]
    ensures r != [] ==> !IsSpace(r[|r| - 1])
    ensures forall i :: |r| <= i < |s| ==> IsSpace(s[i])
    decreases |s|
  {
    if |s| > 0 && IsSpace(s[|s| - 1]) then TrimEnd(s[..|s| - 1]) else s
  }

  /** trim(): s without its leading and trailing white space. */
  function Trim(s: string): (r: string)
    ensures |r| <= |s|
    ensures r != [] ==> !IsSpace(r[0]) && !IsSpace(r[|r| - 1])
    ensures r == [] <==> forall i :: 0 <= i < |s| ==> IsSpace(s[i])
    ensures exists i, j :: 0 <= i <= j <= |s| && r == s[i..j]
              && (forall k :: 0 <= k < i ==> IsSpace(s[k])) && (forall k :: j <= k < |s| ==> IsSpace(s[k]))
  {
    var a := TrimStart(s);
    var r := TrimEnd(a);
    TrimmedSlice(s, a, r);
    r
  }

  /**
   * What trimming both ends gives: the slice of s between its leading and its
   * trailing white space, empty exactly when s is all white space.
   */
  lemma TrimmedSlice(s: string, a: string, r: string)
    requires |a| <= |s| && a == s[|s| - |a|..] && forall i :: 0 <= i < |s| - |a| ==> IsSpace(s[i])
    requires a != [] ==> !IsSpace(a[0])
    requires |r| <= |a| && r == a[..|r|] && forall i :: |r| <= i < |a| ==> IsSpace(a[i])
    requires r != [] ==> !IsSpace(r[|r| - 1])
    ensures r != [] ==> !IsSpace(r[0])
    ensures r == [] <==> forall i :: 0 <= i < |s| ==> IsSpace(s[i])
    ensures exists i, j :: 0 <= i <= j <= |s| && r == s[i..j]
              && (forall k :: 0 <= k < i ==> IsSpace(s[k])) && (forall k :: j <= k < |s| ==> IsSpace(s[k]))
  {
    var i := |s| - |a|;
    var j := i + |r|;
    assert r == s[i..j];
    forall k | j <= k < |s|
      ensures IsSpace(s[k])
    {
      assert s[k] == a[k - i];
    }
    if r != [] {
      assert r[0] == a[0] == s[i];
    }
  }

  /** A string that starts and ends with a non-space character is its own trim. */
  lemma TrimUnpadded(s: string)
    requires s != [] ==> !IsSpace(s[0]) && !IsSpace(s[|s| - 1])
    ensures Trim(s) == s
  {
  }

  /** s.split(c)[0]: the text before the first c, or all of s. */
  function BeforeFirst(s: string, c: char): (r: string)
    ensures StartsWith(s, r)
    ensures c !in r
    ensures |r| < |s| ==> s[|r|] == c
    decreases |s|
  {
    if s == [] then []
    else if s[0] == c then []
    else [s[0]] + BeforeFirst(s[1..], c)
  }

  function DigitChar(d: int): (c: char)
    requires 0 <= d < 10
    ensures '0' <= c <= '9'
  {
    ('0' as int + d) as char
  }

  function DigitValue(c: char): int {
    if '0' <= c <= '9' then c as int - '0' as int else 0
  }

  /** Decimal rendering of a natural number, without leading zeros. */
  function NatToString(n: nat): (r: string)
    ensures r != []
    ensures forall i :: 0 <= i < |r| ==> '0' <= r[i] <= '9'
    decreases n
  {
    if n < 10 then [DigitChar(n)] else NatToString(n / 10) + [DigitChar(n % 10)]
  }

  /** Number.prototype.toString() on an integer. */
  function IntToString(i: int): (r: string)
    ensures r != []
  {
    if i < 0 then "-" + NatToString(-i) else NatToString(i)
  }

  function ParseNat(s: string): nat
    decreases |s|
  {
    if s == [] then 0 else ParseNat(s[..|s| - 1]) * 10 + (if '0' <= s[|s| - 1] <= '9' then DigitValue(s[|s| - 1]) else 0)
  }

  /** Reads a decimal numeral with an optional leading minus sign. */
  function ParseInt(s: string): int {
    if |s| > 0 && s[0] == '-' then -(ParseNat(s[1..]) as int) else ParseNat(s)
  }

  lemma {:induction false} ParseNatToString(n: nat)
    ensures ParseNat(NatToString(n)) == n
    decreases n
  {
    if n >= 10 {
      var s := NatToString(n);
      assert s[..|s| - 1] == NatToString(n / 10);
      ParseNatToString(n / 10);
    }
  }

  /** Every rendered integer reads back as itself. */
  lemma ParseIntToString(i: int)
    ensures ParseInt(IntToString(i)) == i
  {
    if i < 0 {
      assert IntToString(i)[1..] == NatToString(-i);
      ParseNatToString(-i);
    } else {
      ParseNatToString(i);
    }
  }

  /** Rendering is injective: distinct integers never render alike. */
  lemma IntToStringInjective(a: int, b: int)
    requires IntToString(a) == IntToString(b)
    ensures a == b
  {
    ParseIntToString(a);
    ParseIntToString(b);
  }
}

=== FILE: url_params.dfy ===
/**
 * A URLSearchParams object: a mutable, ordered list of name/value pairs.
 * Only the operations the application calls are modelled; serialisation
 * leaves out percent-encoding.
 */
module UrlParams {
  import opened Wrappers
  import opened Pairs

  class UrlSearchParams {
    var entries: seq<Pair>

    /** new URLSearchParams(init), where init is an already parsed pair list. */
    constructor (init: seq<Pair>)
      ensures entries == init
    {
      entries := init;
    }

    /** params.append(name, value) */
    method Append(name: string, value: string)
      modifies this
      ensures entries == old(entries) + [(name, value)]
    {
      entries := entries + [(name, value)];
    }

    /** params.set(name, value) */
    method Set(name: string, value: string)
      modifies this
      ensures entries == Put(old(entries), name, value)
      ensures Lookup(entries, name) == Some(value)
    {
      LookupPut(entries, name, value, name);
      entries := Put(entries, name, value);
    }

    /** params.delete(name) */
    method Delete(name: string)
      modifies this
      ensures entries == Removed(old(entries), name)
      ensures Lookup(entries, name).None?
    {
      LookupRemoved(entries, name, name);
      entries := Removed(entries, name);
    }

    /** params.toString() */
    function ToString(): string
      reads this
    {
      Serialize(entries)
    }
  }
}

=== FILE: warehouse.dfy ===
/**
 * Warehouse records (src/lib/warehouse.ts): the mapping from a backend row,
 * which may use lower-case or capitalised keys, to the frontend shape.
 */
module Warehouses {
  import opened Wrappers
  import opened JsonValue

  const WarehousesPerPage := 10

  /** A mapped warehouse; each field is whatever the `||` chain picked, so it stays a Json. */
  datatype Warehouse = Warehouse(id: Json, name: Json, address: Json, ward: Json, district: Json, city: Json, country: Json)

  /** The filters a warehouse list call receives; absent fields take their defaults. */
  datatype WarehouseFilters = WarehouseFilters(search: Option<string>, page: Option<int>, limit: Option<int>)

  /** `record.lower || record.Upper || ''` */
  function FieldOr(record: Json, lower: string, upper: string): (v: Json)
    ensures Truthy(Get(record, lower)) ==> v == Get(record, lower)
    ensures !Truthy(Get(record, lower)) && Truthy(Get(record, upper)) ==> v == Get(record, upper)
    ensures !Truthy(Get(record, lower)) && !Truthy(Get(record, upper)) ==> v == JStr("")
  {
    Or(Or(Get(record, lower), Get(record, upper)), JStr(""))
  }

  /** A displayable text field: truthy, or the empty-string default. */
  predicate Filled(v: Json) {
    Truthy(v) || v == JStr("")
  }

  /** mapBackendWarehouse(record); reading a field of null or undefined throws. */
  function MapBackendWarehouse(record: Json): (r: Result<Warehouse, string>)
    ensures r.Failure? <==> IsNullish(record)
    ensures r.Failure? ==> r.error == NullReadMessage(record, "id")
    ensures r.Success? ==>
              var w := r.value;
              w.id == Or(Get(record, "id"), Get(record, "ID"))
              && w.name == FieldOr(record, "name", "Name") && w.address == FieldOr(record, "address", "Address")
              && w.ward == FieldOr(record, "ward", "Ward") && w.district == FieldOr(record, "district", "District")
              && w.city == FieldOr(record, "city", "City") && w.country == FieldOr(record, "country", "Country")
    ensures r.Success? ==> Filled(r.value.name) && Filled(r.value.address) && Filled(r.value.ward)
                           && Filled(r.value.district) && Filled(r.value.city) && Filled(r.value.country)
  {
    if IsNullish(record) then Failure(NullReadMessage(record, "id"))
    else Success(Warehouse(
      Or(Get(record, "id"), Get(record, "ID")),
      FieldOr(record, "name", "Name"),
      FieldOr(record, "address", "Address"),
      FieldOr(record, "ward", "Ward"),
      FieldOr(record, "district", "District"),
      FieldOr(record, "city", "City"),
      FieldOr(record, "country", "Country")))
  }

  /** A warehouse as the frontend would send it back: its fields under their lower-case keys. */
  function ToBackend(w: Warehouse): Json {
    JObj(map["id" := w.id, "name" := w.name, "address" := w.address, "ward" := w.ward,
             "district" := w.district, "city" := w.city, "country" := w.country])
  }

  /** A warehouse whose id is truthy or absent, and whose text fields are filled, survives a round trip through its backend form. */
  lemma ToBackendRoundTrip(w: Warehouse)
    requires Truthy(w.id) || w.id == JUndefined
    requires Filled(w.name) && Filled(w.address) && Filled(w.ward) && Filled(w.district) && Filled(w.city) && Filled(w.country)
    ensures MapBackendWarehouse(ToBackend(w)) == Success(w)
  {
    var j := ToBackend(w);
    assert Get(j, "id") == w.id && Get(j, "name") == w.name && Get(j, "address") == w.address;
    assert Get(j, "ward") == w.ward && Get(j, "district") == w.district;
    assert Get(j, "city") == w.city && Get(j, "country") == w.country;
  }

  /** Mapping is idempotent on records whose id is truthy or absent. */
  lemma MapIdempotent(record: Json)
    requires !IsNullish(record)
    requires var id := Or(Get(record, "id"), Get(record, "ID")); Truthy(id) || id == JUndefined
    ensures MapBackendWarehouse(ToBackend(MapBackendWarehouse(record).value)) == MapBackendWarehouse(record)
  {
    ToBackendRoundTrip(MapBackendWarehouse(record).value);
  }
}

=== FILE: warehouse_client.dfy ===
/**
 * The client-side warehouse hook (src/lib/warehouse-client.ts). Unlike the
 * inventory hook it calls fetch directly: it refuses to go on without a
 * session token, sends the token and a JSON Content-Type, turns a non-2xx
 * response into "HTTP <status>: <body text>", and maps every row with
 * Warehouses.MapBackendWarehouse.
 */
module WarehouseClient {
  import opened Wrappers
  import opened JsonValue
  import opened Text
  import opened Pairs
  import opened Http
  import opened ListResponse
  import opened UrlParams
  import opened Warehouses
  import opened Inventory
  import InventoryClient
  import ApiClient

  const ListUrl := "http://localhost:7450/v1/warehouse/list"
  const ItemUrlBase := "http://localhost:13741/v1/warehouse/"
  const NoTokenMessage := "No authentication token available"
  const ServicePrefix := "Warehouse service error: "

  /** The headers of every warehouse request. */
  function AuthHeaders(token: string): (h: seq<Pair>)
    ensures Lookup(h, "Authorization") == Some("Bearer " + token)
    ensures Lookup(h, "Content-Type") == Some("application/json")
  {
    assert "Content-Type"[0] != "Authorization"[0];
    [("Authorization", "Bearer " + token), ("Content-Type", "application/json")]
  }

  /** The ok check of a fetch outcome: a non-2xx status throws with the body text. */
  function Checked(outcome: FetchOutcome): (r: Result<HttpResponse, Error>)
    ensures outcome.NetworkFailure? ==> r == Failure(PlainError(outcome.message))
    ensures outcome.Received? && !IsOk(outcome.response.status) ==>
              r == Failure(PlainError(StatusLine(outcome.response.status, outcome.response.text)))
    ensures r.Success? <==> outcome.Received? && IsOk(outcome.response.status)
    ensures r.Success? ==> r.value == outcome.response
  {
    match outcome
    case NetworkFailure(m) => Failure(PlainError(m))
    case Received(resp) =>
      if !IsOk(resp.status) then Failure(PlainError(StatusLine(resp.status, resp.text)))
      else Success(resp)
  }

  /** Checked, then response.json(), whose SyntaxError is rethrown as it is. */
  function Receive(outcome: FetchOutcome): (r: Result<Json, Error>)
    ensures Checked(outcome).Failure? ==> r == Failure(Checked(outcome).error)
    ensures Checked(outcome).Success? && outcome.response.json.Success? ==> r == Success(outcome.response.json.value)
    ensures Checked(outcome).Success? && outcome.response.json.Failure? ==> r == Failure(PlainError(outcome.response.json.error))
  {
    match Checked(outcome)
    case Failure(e) => Failure(e)
    case Success(resp) =>
      match resp.json
      case Success(v) => Success(v)
      case Failure(m) => Failure(PlainError(m))
  }

  /** The query of the list call: search when set, page above 1, limit other than the page size. */
  function WarehouseQueryPairs(search: string, page: int, limit: int): (pairs: seq<Pair>)
    ensures Lookup(pairs, "search") == (if search != "" then Some(search) else None)
    ensures Lookup(pairs, "status").None?
    ensures Lookup(pairs, "page") == (if page > 1 then Some(IntToString(page)) else None)
    ensures Lookup(pairs, "limit") == (if limit != WarehousesPerPage then Some(IntToString(limit)) else None)
  {
    var se := if search != "" then [("search", search)] else [];
    var pg := if page > 1 then [("page", IntToString(page))] else [];
    var lm := if limit != WarehousesPerPage then [("limit", IntToString(limit))] else [];
    LookupConcat4(se, [], pg, lm, "search");
    LookupConcat4(se, [], pg, lm, "status");
    LookupConcat4(se, [], pg, lm, "page");
    LookupConcat4(se, [], pg, lm, "limit");
    assert "search"[0] != "page"[0] && "search"[0] != "limit"[0] && "page"[0] != "limit"[0];
    assert "search"[1] != "status"[1] && "status"[0] != "page"[0] && "status"[0] != "limit"[0];
    assert se + [] + pg + lm == se + pg + lm;
    se + pg + lm
  }

  method BuildWarehouseQuery(search: string, page: int, limit: int) returns (pairs: seq<Pair>)
    ensures pairs == WarehouseQueryPairs(search, page, limit)
  {
    var params := new UrlSearchParams([]);
    if search != "" {
      params.Append("search", search);
    }
    if page > 1 {
      params.Append("page", IntToString(page));
    }
    if limit != WarehousesPerPage {
      params.Append("limit", IntToString(limit));
    }
    pairs := params.entries;
  }

  /** The filters read back from the query, with a page below 2 read as page 1. */
  lemma WarehouseQueryRoundTrip(search: string, page: int, limit: int)
    ensures ReadListQuery(WarehouseQueryPairs(search, page, limit), WarehousesPerPage)
            == ListQuery(search, "All", if page > 1 then page else 1, limit)
  {
    ParseIntToString(page);
    ParseIntToString(limit);
  }

  function ListUrlFor(pairs: seq<Pair>): string {
    var qs := Serialize(pairs);
    ListUrl + (if qs != "" then "?" + qs else "")
  }

  function ItemUrl(id: int): string {
    ItemUrlBase + IntToString(id)
  }

  /** fetchWarehouses(filters) with the session token and the outcome of its fetch. */
  function FetchWarehousesExchange(filters: WarehouseFilters, token: Option<string>, outcome: FetchOutcome)
    : (x: Exchange<Page<Warehouse>>)
    ensures !HasToken(token) ==> x == Exchange([], Failure(PlainError(ServicePrefix + NoTokenMessage)))
    ensures HasToken(token) ==>
              var page := filters.page.GetOr(1);
              var limit := filters.limit.GetOr(WarehousesPerPage);
              x.sent == [Request(ListUrlFor(WarehouseQueryPairs(filters.search.GetOr(""), page, limit)), "GET",
                                 AuthHeaders(token.value), None)]
              && (Receive(outcome).Failure? ==> x.result == Failure(PlainError(ServicePrefix + Receive(outcome).error.message)))
              && (Receive(outcome).Success? ==>
                    match Normalized(Receive(outcome).value, "warehouses", page, limit, MapBackendWarehouse, MapBackendWarehouse)
                    case Success(p) => x.result == Success(p)
                    case Failure(m) => x.result == Failure(PlainError(ServicePrefix + m)))
    ensures x.result.Failure? ==> StartsWith(x.result.error.message, ServicePrefix)
  {
    var search := filters.search.GetOr("");
    var page := filters.page.GetOr(1);
    var limit := filters.limit.GetOr(WarehousesPerPage);
    if !HasToken(token) then Exchange([], Failure(PlainError(ServicePrefix + NoTokenMessage)))
    else
      var sent := [Request(ListUrlFor(WarehouseQueryPairs(search, page, limit)), "GET", AuthHeaders(token.value), None)];
      match Receive(outcome)
      case Failure(e) => Exchange(sent, Failure(PlainError(ServicePrefix + e.message)))
      case Success(response) =>
        match Normalized(response, "warehouses", page, limit, MapBackendWarehouse, MapBackendWarehouse)
        case Success(p) => Exchange(sent, Success(p))
        case Failure(m) => Exchange(sent, Failure(PlainError(ServicePrefix + m)))
  }

  method FetchWarehouses(filters: WarehouseFilters, token: Option<string>, outcome: FetchOutcome)
    returns (x: Exchange<Page<Warehouse>>)
    ensures x == FetchWarehousesExchange(filters, token, outcome)
  {
    var search := filters.search.GetOr("");
    var page := filters.page.GetOr(1);
    var limit := filters.limit.GetOr(WarehousesPerPage);
    if !HasToken(token) {
      return Exchange([], Failure(PlainError(ServicePrefix + NoTokenMessage)));
    }
    var pairs := BuildWarehouseQuery(search, page, limit);
    var sent := [Request(ListUrlFor(pairs), "GET", AuthHeaders(token.value), None)];
    var response := Receive(outcome);
    if response.Failure? {
      return Exchange(sent, Failure(PlainError(ServicePrefix + response.error.message)));
    }
    var result := Normalize(response.value, "warehouses", page, limit, MapBackendWarehouse, MapBackendWarehouse);
    if result.Failure? {
      return Exchange(sent, Failure(PlainError(ServicePrefix + result.error)));
    }
    x := Exchange(sent, Success(result.value));
  }

  /** `if (response.data) return mapBackendWarehouse(response.data); throw new Error('Invalid response format')` */
  function WarehouseFromResponse(response: Json): (r: Result<Warehouse, Error>)
    ensures r.Success? <==> !IsNullish(response) && Truthy(Get(response, "data"))
    ensures r.Success? ==> r.value == MapBackendWarehouse(Get(response, "data")).value
    ensures !IsNullish(response) && !Truthy(Get(response, "data")) ==> r == Failure(PlainError(InventoryClient.InvalidResponseFormat))
    ensures IsNullish(response) ==> r == Failure(PlainError(NullReadMessage(response, "data")))
  {
    match Read(response, "data")
    case Failure(m) => Failure(PlainError(m))
    case Success(data) =>
      if !Truthy(data) then Failure(PlainError(InventoryClient.InvalidResponseFormat))
      else Success(MapBackendWarehouse(data).value)
  }

  /** fetchWarehouse(id): errors are rethrown without a prefix. */
  function FetchWarehouseExchange(id: int, token: Option<string>, outcome: FetchOutcome): (x: Exchange<Warehouse>)
    ensures !HasToken(token) ==> x == Exchange([], Failure(PlainError(NoTokenMessage)))
    ensures HasToken(token) ==>
              x.sent == [Request(ItemUrl(id), "GET", AuthHeaders(token.value), None)]
              && (Receive(outcome).Failure? ==> x.result == Failure(Receive(outcome).error))
              && (Receive(outcome).Success? ==> x.result == WarehouseFromResponse(Receive(outcome).value))
  {
    if !HasToken(token) then Exchange([], Failure(PlainError(NoTokenMessage)))
    else
      var sent := [Request(ItemUrl(id), "GET", AuthHeaders(token.value), None)];
      match Receive(outcome)
      case Failure(e) => Exchange(sent, Failure(e))
      case Success(response) => Exchange(sent, WarehouseFromResponse(response))
  }

  /** deleteWarehouse(id): only the ok check; the body is never read as JSON. */
  function DeleteWarehouseExchange(id: int, token: Option<string>, outcome: FetchOutcome): (x: Exchange<()>)
    ensures !HasToken(token) ==> x == Exchange([], Failure(PlainError(NoTokenMessage)))
    ensures HasToken(token) ==>
              x.sent == [Request(ItemUrl(id), "DELETE", AuthHeaders(token.value), None)]
              && (x.result.Success? <==> Checked(outcome).Success?)
              && (Checked(outcome).Failure? ==> x.result == Failure(Checked(outcome).error))
  {
    if !HasToken(token) then Exchange([], Failure(PlainError(NoTokenMessage)))
    else
      var sent := [Request(ItemUrl(id), "DELETE", AuthHeaders(token.value), None)];
      match Checked(outcome)
      case Failure(e) => Exchange(sent, Failure(e))
      case Success(_) => Exchange(sent, Success(()))
  }

  /** A 2xx delete succeeds whatever its body: a body that is not JSON does not matter. */
  lemma DeleteIgnoresBody(id: int, token: string, status: int, statusText: string, text: string, syntaxError: string)
    requires token != "" && IsOk(status)
    ensures DeleteWarehouseExchange(id, Some(token), Received(HttpResponse(status, statusText, text, Failure(syntaxError)))).result
            == Success(())
  {
  }
}

=== FILE: warehouse_filters.dfy ===
/**
 * The warehouse search bar (src/components/warehouse/WarehouseFilters.tsx):
 * a local search input, and two handlers that hand the parent a copy of
 * its filters with a new search and page 1.
 */
module WarehouseSearchBar {
  import opened Wrappers
  import opened Warehouses

  /** `{...filters, search: searchInput, page: 1}` */
  function Submitted(filters: WarehouseFilters, searchInput: string): (f: WarehouseFilters)
    ensures f.search == Some(searchInput) && f.page == Some(1)
    ensures f.limit == filters.limit
  {
    filters.(search := Some(searchInput), page := Some(1))
  }

  /** `{...filters, search: '', page: 1}` */
  function Cleared(filters: WarehouseFilters): (f: WarehouseFilters)
    ensures f.search == Some("") && f.page == Some(1)
    ensures f.limit == filters.limit
  {
    filters.(search := Some(""), page := Some(1))
  }

  class SearchBar {
    var searchInput: string

    /** `useState(filters.search || '')` */
    constructor (filters: WarehouseFilters)
      ensures searchInput == (if filters.search.Some? then filters.search.value else "")
    {
      searchInput := filters.search.GetOr("");
    }

    /** The input's onChange. */
    method Type(value: string)
      modifies this
      ensures searchInput == value
    {
      searchInput := value;
    }

    /** handleSearchSubmit: the filters emitted; the input is left as it is. */
    method Submit(filters: WarehouseFilters) returns (emitted: WarehouseFilters)
      ensures emitted == Submitted(filters, searchInput)
    {
      emitted := filters.(search := Some(searchInput), page := Some(1));
    }

    /** handleSearchClear: the input is emptied and the cleared filters are emitted. */
    method Clear(filters: WarehouseFilters) returns (emitted: WarehouseFilters)
      modifies this
      ensures searchInput == ""
      ensures emitted == Cleared(filters)
    {
      searchInput := "";
      emitted := filters.(search := Some(""), page := Some(1));
    }
  }

  /** Clearing is submitting an empty input. */
  lemma ClearIsEmptySubmit(filters: WarehouseFilters)
    ensures Cleared(filters) == Submitted(filters, "")
  {
  }

  /** Submitting twice emits the same filters as submitting once. */
  lemma SubmitIdempotent(filters: WarehouseFilters, searchInput: string)
    ensures Submitted(Submitted(filters, searchInput), searchInput) == Submitted(filters, searchInput)
  {
  }
}

=== FILE: warehouse_table.dfy ===
/**
 * The page buttons of the warehouse table
 * (src/components/warehouse/WarehouseTable.tsx): a window of at most five
 * consecutive pages around the current one, shifted left near the end.
 */
module WarehouseTable {
  import opened Wrappers
  import opened Js

  const MaxVisiblePages := 5

  /** startPage after the adjustment for a window cut short by the last page. */
  function WindowStart(currentPage: int, totalPages: int): int {
    var start := Max(1, currentPage - MaxVisiblePages / 2);
    var end := Min(totalPages, start + MaxVisiblePages - 1);
    if end - start + 1 < MaxVisiblePages then Max(1, end - MaxVisiblePages + 1) else start
  }

  /** endPage, which the adjustment leaves as it was. */
  function WindowEnd(currentPage: int, totalPages: int): int {
    Min(totalPages, Max(1, currentPage - MaxVisiblePages / 2) + MaxVisiblePages - 1)
  }

  /** renderPagination(): nothing for a single page, else the page numbers the loop pushes. */
  method RenderPagination(currentPage: int, totalPages: int) returns (pages: Option<seq<int>>)
    ensures pages.None? <==> totalPages <= 1
    ensures pages.Some? ==>
              var start := WindowStart(currentPage, totalPages);
              |pages.value| == WindowEnd(currentPage, totalPages) - start + 1
              && forall k :: 0 <= k < |pages.value| ==> pages.value[k] == start + k
  {
    if totalPages <= 1 {
      return None;
    }
    var startPage := Max(1, currentPage - MaxVisiblePages / 2);
    var endPage := Min(totalPages, startPage + MaxVisiblePages - 1);
    if endPage - startPage + 1 < MaxVisiblePages {
      startPage := Max(1, endPage - MaxVisiblePages + 1);
    }
    var list: seq<int> := [];
    var i := startPage;
    while i <= endPage
      invariant startPage <= i <= endPage + 1
      invariant |list| == i - startPage
      invariant forall k :: 0 <= k < |list| ==> list[k] == startPage + k
    {
      list := list + [i];
      i := i + 1;
    }
    pages := Some(list);
  }

  /** The window never leaves [1, totalPages] and is never empty, whatever currentPage is. */
  lemma WindowBounds(currentPage: int, totalPages: int)
    requires totalPages > 1
    ensures 1 <= WindowStart(currentPage, totalPages) <= WindowEnd(currentPage, totalPages) <= totalPages
  {
  }

  /** For a current page in range, the window shows it and has min(5, totalPages) buttons. */
  lemma WindowHoldsCurrent(currentPage: int, totalPages: int)
    requires totalPages > 1 && 1 <= currentPage <= totalPages
    ensures WindowStart(currentPage, totalPages) <= currentPage <= WindowEnd(currentPage, totalPages)
    ensures WindowEnd(currentPage, totalPages) - WindowStart(currentPage, totalPages) + 1 == Min(MaxVisiblePages, totalPages)
  {
  }

  /** `disabled` of the Previous buttons: always while loading, otherwise exactly when no page precedes. */
  function PreviousDisabled(currentPage: int, isLoading: bool): (b: bool)
    ensures isLoading ==> b
    ensures !isLoading ==> (b <==> currentPage - 1 < 1)
  {
    currentPage <= 1 || isLoading
  }

  /** `disabled` of the Next buttons: always while loading, otherwise exactly when no page follows. */
  function NextDisabled(currentPage: int, totalPages: int, isLoading: bool): (b: bool)
    ensures isLoading ==> b
    ensures !isLoading ==> (b <==> currentPage + 1 > totalPages)
  {
    currentPage >= totalPages || isLoading
  }

  /** An enabled Previous or Next button leads to a page in [1, totalPages] from a page in range. */
  lemma EnabledStepsStayInRange(currentPage: int, totalPages: int, isLoading: bool)
    requires 1 <= currentPage <= totalPages
    ensures !PreviousDisabled(currentPage, isLoading) ==> 1 <= currentPage - 1 <= totalPages
    ensures !NextDisabled(currentPage, totalPages, isLoading) ==> 1 <= currentPage + 1 <= totalPages
    ensures isLoading ==> PreviousDisabled(currentPage, isLoading) && NextDisabled(currentPage, totalPages, isLoading)
  {
  }
}

=== FILE: wrappers.dfy ===
/** Option and Result, the two failure-carrying wrappers the model uses. */
module Wrappers {

  datatype Option<+T> = None | Some(value: T) {
    function GetOr(default: T): T {
      match this
      case Some(v) => v
      case None => default
    }
  }

  datatype Result<+T, +E> = Success(value: T) | Failure(error: E)
}
